=== FILE: README.md ===
# devTinder connection workflow, modelled in Dafny

devTinder is a small Express/Mongoose back end for a developer dating app.
Users sign up with a validated profile. They send each other connection
requests, marked "interested" or "ignored". The recipient reviews a pending
request as "accepted" or "rejected". The app also pages through a feed of
users the caller has no request with, and lets users edit their own profile.

This project models that core as values and state:

- `Json`: request bodies as JSON values. `Lookup` reads a key, keeping the
  later of two repeated keys. `Truthy` gives JavaScript truthiness.
- `Seqs`: an order-preserving filter, standing in for the store's `find`.
- `UserModel` and `ConnectionModel`: the two Mongoose schemas. This covers
  their required paths, the length, minimum and enum validators, the defaults,
  and the unique `(fromUserId, toUserId)` index.
- `Connections`: the send and review handlers. Each is specified by a pair of
  functions, `...Outcome` for the HTTP response and `...Effect` for the new
  connection collection. `ConnectionStore` is a class whose `Send` and
  `Review` methods update the collection in place and are proved equal to
  those functions. The module also covers the three list endpoints
  (incoming, sent, accepted). It keeps one store invariant, `Exclusive`: at
  most one connection per unordered pair of users, and never a self-loop.
- `Validator`: `validateSignup` and `validateProfile`, each proved equal to
  an ordered list of rules where the first broken rule's message is
  reported.
- `Feed`: the feed handler as written, including the JavaScript `parseInt`
  that reads the `page` and `limit` query strings, and the exclusion set
  built by a loop. It also covers `$nin`, `skip` and `limit`. A negative limit
  passes the route's cap (see Findings), so the module also defines the
  intended response, built on a corrected limit, and relates the two.
- `Profile`: the profile edit. `UserDocument` is the loaded Mongoose document
  (a record, a cast-failure flag and the stored copy). `Object.assign` is
  modelled key by key on the parsed body, so a repeated key is assigned once
  with its last value. `save()` re-runs the schema validators.

The email and strong-password checks of the `validator` library are
parameters (`Library`, `isEmail`). The authenticated caller is a parameter
as well: the caller's id in the connection handlers, and an optional id in
the feed, where a missing user gives 401. Every handler is one atomic step
on the store.

## Model

| member | source | states |
|---|---|---|
| `Json.Lookup` | src/utils/validator.js:32 | `data.key` on a parsed body: the value of the last member with that key, or undefined |
| `Json.Truthy` | src/utils/validator.js:34-58 | JavaScript truthiness of a body value: undefined, null, false, 0 and the empty string are falsy, everything else (empty arrays and objects included) is truthy |
| `Json.LookupSpec` | src/utils/validator.js:32 | reading `data.key` yields nothing exactly when no member has the key, and otherwise the value of the last member with that key |
| `Seqs.Filter` | src/routes/connections.js:101-104 | every `find` with a filter: the result holds exactly the records that pass the filter, in store order, each as often as in the store, and is no longer than the store |
| `UserModel.SchemaValid` | src/models/user.js:6-60 | the user schema's validators: required first name, email and password; name lengths 4..20; age at least 18; gender in the enum; isEmail and isStrongPassword |
| `UserModel.Public` | src/routes/feed.js:33-35 | `.select('firstName lastName age gender profilePicture')`: the public projection keeps the id and those five fields and drops email, password, about and skills; `Feed.Project` and `Feed.SelectIsWindowOfEligible` state that each feed entry is this projection of an eligible user |
| `UserModel.NewUser` | src/models/user.js:46-60 | a new user document, where about, profile picture and skills take the schema defaults when not supplied |
| `UserModel.DefaultsKeepValidity` | src/models/user.js:6-60 | a new user gets the default about text, picture and empty skills, and is schema-valid iff first name is 4..20 long, a given last name is 4..20, a given age is at least 18, a given gender is male/female/other, and email and password are non-empty and pass their validators |
| `UserModel.FindUser` | src/routes/connections.js:26-29 | `findById` returns a stored user with that id, and finds none exactly when no user has it |
| `UserModel.EmailsUnique` | src/models/user.js:19-22 | the unique index on email: no two stored users share an email; `UserModel.ReplaceKeepsEmailsUnique` and `Profile.EditKeepsEmailsUnique` state that edits keep it |
| `UserModel.ReplaceKeepsEmailsUnique` | src/models/user.js:19-27 | replacing one user by a record with the same email keeps emails unique across the collection |
| `ConnectionModel.ParseStatus` | src/models/connections.js:14-19 | a status name is accepted exactly when it is one of the four enum values, and it maps back to that name |
| `ConnectionModel.Build` | src/models/connections.js:3-19 | a connection document is built iff both ids are present and a given status is in the enum; a missing status defaults to interested |
| `ConnectionModel.OrderedPairsUnique` | src/models/connections.js:23 | the unique index `{ fromUserId: 1, toUserId: 1 }`: no two records share the same ordered pair; `Connections.ExclusiveSatisfiesIndex` states that the workflow invariant implies it, and `ConnectionModel.IndexAllowsReversePair` that it alone admits a request each way |
| `ConnectionModel.IndexAllowsReversePair` | src/models/connections.js:23 | the unique index on the ordered pair allows both A to B and B to A, so it alone does not stop crossed requests |
| `Connections.Exclusive` | src/routes/connections.js:21-40 | the store invariant the send checks maintain: no connection from a user to themselves, and at most one connection per unordered pair |
| `Connections.Joins` | src/routes/connections.js:32-35 | one branch of the `$or` filter: a record joins two users when it goes from one to the other in either direction |
| `Connections.Linked` | src/routes/connections.js:31-40 | the existence query of the send route: some record joins the two users in either direction; `Connections.SendSpec` states that a send succeeds only when it does not hold, and `Connections.SecondSendRefused` that it holds after a success |
| `Connections.ExclusiveSatisfiesIndex` | src/routes/connections.js:31-40 | a collection with one connection per unordered pair also satisfies the unique ordered-pair index |
| `Connections.AppendKeepsExclusive` | src/routes/connections.js:31-48 | inserting a non-self connection between two users not yet linked keeps one connection per unordered pair |
| `Connections.StatusChangeKeepsExclusive` | src/routes/connections.js:80-84 | changing only the status of one connection keeps one connection per unordered pair |
| `Connections.SendStatus` | src/routes/connections.js:16-19 | the send route accepts exactly "interested" and "ignored" |
| `Connections.SendOutcome` | src/routes/connections.js:12-53 | the send response, check by check in the handler's order: missing id, status not interested/ignored, self request, target not found, existing connection either way, else the confirmation naming the target |
| `Connections.Interpolate` | src/routes/connections.js:53 | a template literal prints a missing optional field as "undefined" |
| `Connections.SentMessage` | src/routes/connections.js:53 | the confirmation `${firstName} ${lastName} ${status}` of the target, which `Connections.SendOutcome` returns on success |
| `Connections.SendEffect` | src/routes/connections.js:42-48 | the connection collection after a send: the new record appended on success, unchanged otherwise |
| `Connections.SendSpec` | src/routes/connections.js:12-53 | a send succeeds iff both ids are present, the status is interested/ignored, the target is not the sender, the target exists, and no connection links the two users in either direction; a success appends exactly one connection sender to target with that status, and any refusal leaves the collection unchanged |
| `Connections.SendToSelfRefused` | src/routes/connections.js:21-23 | sending to oneself with a valid status is answered with the self-request error and changes nothing |
| `Connections.SecondSendRefused` | src/routes/connections.js:31-40 | after a successful send, a second send between the same two users is refused in either direction |
| `Connections.SendKeepsInvariant` | src/routes/connections.js:42-48 | every send keeps one connection per unordered pair, and only appends to the collection |
| `Connections.SendRecordPassesSchema` | src/routes/connections.js:42-48 | the record a successful send inserts is exactly the one the connection schema builds and validates from the same fields |
| `Connections.ConnectionStore.Send` | src/routes/connections.js:7-58 | the store's send returns the modelled response and leaves the collection equal to the modelled effect, keeping the invariant |
| `Connections.ReviewStatus` | src/routes/connections.js:69-72 | the review route accepts exactly "accepted" and "rejected" |
| `Connections.FindPending` | src/routes/connections.js:80-84 | `findOneAndUpdate` selects the first connection from the requester to the reviewer that is still interested, and finds none exactly when there is no such connection |
| `Connections.ReviewOutcome` | src/routes/connections.js:65-90 | the review response, check by check: missing id, status not accepted/rejected, requester not found, no pending request, else the confirmation naming the reviewer |
| `Connections.ReviewEffect` | src/routes/connections.js:80-84 | the connection collection after a review: the matched pending record takes the new status on success, unchanged otherwise |
| `Connections.ReviewSpec` | src/routes/connections.js:65-90 | a review succeeds iff both ids are present, the status is accepted/rejected, the requester exists, and an interested request from requester to reviewer exists; on success exactly the first such request takes the reviewed status and nothing else changes; on any failure the collection is unchanged |
| `Connections.SenderCannotResolve` | src/routes/connections.js:80-88 | the sender of a pending request cannot accept or reject it; the attempt changes nothing |
| `Connections.ReviewKeepsInvariant` | src/routes/connections.js:80-84 | every review keeps one connection per unordered pair and changes statuses only |
| `Connections.ConnectionStore.Review` | src/routes/connections.js:60-95 | the store's review returns the modelled response and leaves the collection equal to the modelled effect, keeping the invariant |
| `Connections.IncomingTest` | src/routes/connections.js:101-104 | the filter of the incoming-requests query: addressed to the caller and still interested; `Connections.IncomingRequests` states the listing it selects |
| `Connections.SentTest` | src/routes/connections.js:121-124 | the filter of the sent-requests query: sent by the caller and still interested; `Connections.SentRequests` states the listing it selects |
| `Connections.AcceptedTest` | src/routes/connections.js:141-146 | the `$or` filter of the accepted-connections query: accepted, with the caller at either end; `Connections.AcceptedConnections` states the listing it selects |
| `Connections.IncomingRequests` | src/routes/connections.js:101-108 | the incoming list holds exactly the interested connections addressed to the caller, and is "not found" exactly when there are none |
| `Connections.SentRequests` | src/routes/connections.js:121-128 | the sent list holds exactly the interested connections sent by the caller, and is "not found" exactly when there are none |
| `Connections.SentRequestIsListed` | src/routes/connections.js:42-48 | after a successful "interested" send, the new connection is added at the end of the target's incoming list and at the end of the sender's sent list |
| `Connections.AcceptedConnections` | src/routes/connections.js:141-172 | the accepted list is "not found" exactly when the caller has no accepted connection; otherwise every accepted connection of the caller appears as the other party's id, and every entry comes from such a connection |
| `Connections.OtherParty` | src/routes/connections.js:152-171 | the branch of the `map`: the recipient when the caller sent the request, otherwise the sender; `Connections.AcceptedViewIsDirectionFree` and `Connections.AcceptedNeverListsSelf` state its properties |
| `Connections.Views` | src/routes/connections.js:152-172 | the mapped view has exactly one entry per connection, in the connections' order: entry i names the party of connection i that is not the caller, with its status |
| `Connections.AcceptedViewIsDirectionFree` | src/routes/connections.js:153-170 | an accepted connection lists the other user whichever of the two sent the request |
| `Connections.AcceptedNeverListsSelf` | src/routes/connections.js:141-172 | with no self-loops in the store, the accepted list never names the caller |
| `Validator.ValidateSignup` | src/utils/validator.js:3-22 | the four signup checks in source order, each returning its own message |
| `Validator.FirstDisallowed` | src/utils/validator.js:25-30 | the loop over the body's keys, stopping at the first key outside the seven allowed fields |
| `Validator.ValidateProfile` | src/utils/validator.js:24-63 | the allowed-keys loop followed by the seven field checks in source order |
| `Validator.ValidateProfileFields` | src/utils/validator.js:32-62 | the field checks of validateProfile after the key loop; `Validator.ProfileFieldsFollowRules` states that it is the seven-rule chain, and `Validator.ProfileValidIff` when it accepts |
| `Validator.FirstDisallowedSpec` | src/utils/validator.js:25-30 | the key loop reports the first key outside the seven allowed fields, and reports none exactly when every key is allowed |
| `Validator.FirstBrokenSpec` | src/utils/validator.js:24-63 | a rule chain is valid iff every rule holds; otherwise it reports the message of the first rule that fails |
| `Validator.SignupFollowsRules` | src/utils/validator.js:3-22 | signup validation is the chain first name, last name, email, password |
| `Validator.TypedFieldsFollowRules` | src/utils/validator.js:50-62 | the about, profile picture and skills checks run in that order, each with its own message |
| `Validator.OptionalFieldsFollowRules` | src/utils/validator.js:42-62 | the age and gender checks come before the typed-field checks |
| `Validator.ProfileFieldsFollowRules` | src/utils/validator.js:34-62 | the field part of profile validation is the seven-rule chain first name to skills |
| `Validator.ProfileFollowsRules` | src/utils/validator.js:24-63 | profile validation is the allowed-keys rule followed by the seven field rules |
| `Validator.SignupValidIff` | src/utils/validator.js:6-21 | a signup body is valid iff both names are strings of 4..20, the email is a non-empty string accepted by isEmail, and the password is a non-empty string accepted by isStrongPassword; otherwise it reports the first failing check's message |
| `Validator.ProfileValidIff` | src/utils/validator.js:24-62 | a profile body is valid iff every key is allowed, both names are strings of 4..20, and age (non-negative number), gender (male/female/other), about, picture (strings) and skills (array) are each either falsy or well-typed |
| `Validator.ProfileReportsFirstFailure` | src/utils/validator.js:24-63 | an invalid profile body reports the message of the first failing rule in source order |
| `Validator.ProfileNamesFirstDisallowedKey` | src/utils/validator.js:26-30 | a body whose first disallowed key is k is rejected with "Invalid field: k", whatever its values |
| `Validator.ProfileRefusesCredentials` | src/utils/validator.js:25-30 | a profile body containing email or password is always rejected, naming the first disallowed key |
| `Validator.PartialProfileRefused` | src/utils/validator.js:34-40 | a profile edit that omits first name or last name is rejected |
| `Validator.AgeCheckBounds` | src/utils/validator.js:42-44 | a missing age and age 0 pass; otherwise a numeric age passes iff it is non-negative |
| `Feed.ParseInt` | src/routes/feed.js:14-15 | JavaScript `parseInt` on a query value: undefined is NaN; leading white space is skipped, one sign is read, `0x` switches to base 16, and the longest digit run is read, NaN when empty |
| `Feed.TrimStart` | src/routes/feed.js:14 | parseInt skips leading JavaScript white space and line terminators and nothing more |
| `Feed.ParseIntReadsDecimal` | src/routes/feed.js:14 | parseInt reads back any integer written in decimal when what follows starts with a non-digit, except an x or X right after a lone 0, which makes it a hexadecimal prefix |
| `Feed.ParseIntSkipsSpace` | src/routes/feed.js:14 | a leading white-space character does not change what parseInt reads |
| `Feed.ParseIntNaN` | src/routes/feed.js:14 | a missing query value, or a text holding no hexadecimal digit character at all, parses to NaN |
| `Feed.ParseIntEmptyHex` | src/routes/feed.js:14 | "0x" followed by no hex digit parses to NaN |
| `Feed.Page` | src/routes/feed.js:14 | the page is never 0: NaN or 0 falls back to 1, any other parsed value is kept, including a negative one |
| `Feed.LimitAsWritten` | src/routes/feed.js:15-16 | the limit as written is never 0 and never above 100, but may be negative |
| `Feed.DriverLimit` | src/routes/feed.js:37 | the most documents `.limit(limit)` lets the cursor return: the limit's absolute value (a negative limit asks for one batch of that size), and 0 only for 0, which neither the as-written nor the corrected limit produces |
| `Feed.NegativeLimitPassesCap` | src/routes/feed.js:15-16 | a query limit of -n with n > 100 passes the cap unchanged, and the driver then returns up to n documents |
| `Feed.Limit` | src/routes/feed.js:15-16 | the corrected limit is always in 1..100: NaN or a non-positive value gives 10, a positive value is capped at 100 |
| `Feed.LimitAgreesUnlessNegative` | src/routes/feed.js:15-16 | the corrected limit equals the limit as written on every query that does not parse to a negative number |
| `Feed.Skip` | src/routes/feed.js:17 | the number of users skipped: `(page - 1) * limit` |
| `Feed.QueryOfDecimals` | src/routes/feed.js:14-16 | a decimal page and a decimal size in 1..100 are read back unchanged, except that page 0 becomes 1 |
| `Feed.QueryDefaults` | src/routes/feed.js:14-17 | missing, unparsable or zero page and limit give page 1, limit 10 and skip 0 |
| `Feed.Endpoints` | src/routes/feed.js:28-31 | the collected ids are exactly the senders and recipients of the given requests |
| `Feed.TouchesTest` | src/routes/feed.js:19-24 | the `$or` filter of the request query: sent or received by the caller, whatever the status |
| `Feed.Touching` | src/routes/feed.js:19-24 | the request query: the stored records that pass `Feed.TouchesTest`, in store order |
| `Feed.TouchingSpec` | src/routes/feed.js:19-24 | the request query returns exactly the records the caller sent or received, whatever their status |
| `Feed.Excluded` | src/routes/feed.js:19-31 | the caller's id plus both endpoints of every connection the caller sent or received |
| `Feed.ExcludedSpec` | src/routes/feed.js:19-31 | a user is excluded iff it is the caller or the other end of any connection touching the caller |
| `Feed.ExclusionSet` | src/routes/feed.js:26-31 | the loop builds the caller's id plus every endpoint of the fetched requests |
| `Feed.Eligible` | src/routes/feed.js:33-34 | `$nin` keeps exactly the users whose id is not in the exclusion set |
| `Feed.Window` | src/routes/feed.js:36-37 | `skip` then `limit` returns at most limit documents, starting at position skip of the eligible list |
| `Feed.Project` | src/routes/feed.js:35 | each feed entry is the public projection of the user at the same position |
| `Feed.Select` | src/routes/feed.js:33-43 | one feed page: a negative skip is a store error (500); otherwise the public profiles of the eligible users in the window, 404 when empty, else 200 |
| `Feed.FeedOutcome` | src/routes/feed.js:7-48 | the route's response as written: 401 without a user; otherwise the page selected with the limit as written, skipping `(page - 1) * limit` and returning at most the limit's absolute value |
| `Feed.IntendedFeedOutcome` | src/routes/feed.js:14-16 | the response the route evidently intends: the same selection with the corrected page size |
| `Feed.GetFeed` | src/routes/feed.js:7-48 | the handler, which builds the exclusion set with its loop, returns the route's response as written |
| `Feed.FeedHidesExcluded` | src/routes/feed.js:19-37 | no feed entry is the caller or anyone the caller has any connection with, in either direction and any status |
| `Feed.SelectIsWindowOfEligible` | src/routes/feed.js:17-41 | a negative skip is a store error; the feed is empty (404) iff the skip is past the eligible users or the size is 0; otherwise the page is exactly the window of eligible users at the skip |
| `Feed.FeedPageBounded` | src/routes/feed.js:10-16 | the response is 401 iff there is no user; as written a page holds at most the absolute value of the parsed limit, and with the corrected limit never more than 100 |
| `Feed.IntendedAgreesUnlessNegative` | src/routes/feed.js:15-16 | the route's response equals the intended response on every limit query that does not parse to a negative number |
| `Feed.OversizedFeedPage` | src/routes/feed.js:15-37 | as written, `?limit=-n` with n > 100 on the first page lets one batch of up to n users through, so with n eligible users the modelled page holds all n, more than 100, as long as they fit in one batch |
| `Feed.EveryEligibleUserHasAPage` | src/routes/feed.js:14-37 | with a fixed positive page size, the k-th eligible user appears on page k div size + 1 at position k mod size |
| `Profile.AsStrings` | src/models/user.js:56-60 | a skills array casts to a string array iff all of its items are strings, and then keeps them in order |
| `Profile.SetPath` | src/models/user.js:6-60 | one assignment to the document: each schema path takes a value of its type (null unsets an optional path), anything else is a cast failure, and a key outside the schema is not stored |
| `Profile.SetPathSpec` | src/routes/profile.js:27 | assigning one key writes that schema path, keeps the id and every other path, and leaves the record as it was for a key outside the schema |
| `Profile.SetPathAcceptsHeldValues` | src/models/user.js:6-60 | any value a schema path can hold casts back into that path |
| `Profile.AssignAll` | src/routes/profile.js:27 | `Object.assign` of the parsed body: each key once, with its last value; a value that cannot be cast marks the document |
| `Profile.AssignSpec` | src/routes/profile.js:27 | after assigning a whole body, the id is kept, unnamed paths keep their values, and without a cast failure each named schema path holds the body's value |
| `Profile.AssignFailsIff` | src/routes/profile.js:27-28 | assigning a body marks a cast failure iff some key of the parsed body holds a final value its path cannot take; a value overwritten by a later copy of its key is never cast |
| `Profile.UserDocument.Assign` | src/routes/profile.js:27 | assigning in place, key by key and skipping a member whose key comes again later, leaves the document equal to the modelled assignment and records any cast failure |
| `Profile.SaveValid` | src/routes/profile.js:28 | what `save()` re-checks on the loaded document: the profile paths' validators and the email validator (the password is not loaded); `Profile.UserDocument.Save` succeeds iff it holds and nothing failed to cast, and `Profile.MinorAgeFailsSave` shows the `min: 18` check at work |
| `Profile.UserDocument.Save` | src/routes/profile.js:28 | save succeeds iff no cast failed and the loaded paths pass their validators, and only then updates the stored copy |
| `Profile.EditOutcome` | src/routes/profile.js:19-34 | the edit's response: 400 with the validator's message, or else the body assigned and saved, 200 with the new record on success and 500 on a failed cast or validator |
| `Profile.EditProfile` | src/routes/profile.js:19-34 | the edit returns 400 with the validator's message on an invalid body and changes nothing; otherwise it assigns the body and saves, giving 200 with the saved user, or 500 |
| `Profile.EditKeepsCredentials` | src/routes/profile.js:20-27 | a successful edit never changes the id, the email or the password |
| `Profile.EditWritesBody` | src/routes/profile.js:27-29 | after a successful edit each schema path holds the body's value if the body names it, and its old value otherwise |
| `Profile.MinorAgeFailsSave` | src/routes/profile.js:28-32 | a body the validator accepts with an age in [0, 18) fails at save, with 500 |
| `Profile.EditKeepsEmailsUnique` | src/models/user.js:19-27 | a successful edit keeps emails unique across the users collection |

## Left out

- Sign-up, login, logout, JWT issue and check, and bcrypt (`src/routes/auth.js`, `getJWT`, `validatePassword`) are not part of this model. The authenticated caller is a parameter.
- The `validator` library's `isEmail` and `isStrongPassword` are parameters, not models of that library.
- MongoDB ObjectIds are strings. A malformed id, which makes `findById` throw a CastError and the handler answer 500, is not modelled. An empty string stands for a missing id.
- Connections.SendToSelfRefused: ids are compared as exact strings, in the self check and in the store lookups alike. The route compares the caller's ObjectId, as lower-case hex text, with the raw path parameter (src/routes/connections.js:21). `findById` and `findOne` compare after casting the parameter to an ObjectId, which ignores letter case. An upper-case spelling of one's own id would pass the self check and could be stored as a self-loop. So `Exclusive`'s no-self-loop half, and `AcceptedNeverListsSelf` which relies on it, hold only for ids written in canonical form.
- The profile view route (src/routes/profile.js:7-17) is outside the core and is not modelled.
- Database failures are not modelled, so the catch blocks answer 500 only where the model has a cause: a negative skip in the feed, and a failed cast or validator on profile save. The `!data` branch after an insert (src/routes/connections.js:49-51) cannot occur in the model.
- Handlers run one at a time. Two concurrent sends that both pass the existence check before either inserts are not modelled.
- `populate()` is not modelled. List entries carry the connection itself, or the other party's id and the status.
- Connections.AcceptedConnections: its entries carry only the other party's id and the status. The populated name, gender, age and picture are not modelled.
- The `timestamps` option (createdAt, updatedAt) is not modelled.
- Feed.DriverLimit: the server caps one batch at 16 MiB of documents. A negative limit whose users do not fit in one batch returns fewer than its absolute value; the model returns them all, so its page size is an upper bound there.
- JSON numbers are exact reals, so a huge literal that JavaScript reads as Infinity stays finite here. `parseInt` yields unbounded integers: there is no precision loss above 2^53, and no exponent form from numbers written as text.
- Profile.SetPath: Mongoose's lenient casting is not modelled. A value of another JSON type for a path counts as a cast failure, so save fails with 500. Mongoose would instead turn 0 into "0" and false into "false", store null for about, picture or skills, and wrap a lone value into a one-element skills array.
- Profile.SetPath: null on the optional paths lastName, age and gender unsets the path, and its validators then pass.
- String lengths count characters, not UTF-16 code units.
- `Object.keys` lists integer-like keys before the others. Here, keys are taken in written order.
- Repeated query keys, which Express turns into an array, are not modelled. A query value is an optional string.
- The JSON response bodies are reduced to a status code and the message text.

## Findings

| source | as written | input that shows it | evidently intended | confidence | as-written member | corrected member |
|---|---|---|---|---|---|---|
| src/routes/feed.js:15-16 | the limit is capped only from above (`limit > 100`), so a negative parsed limit passes unchanged to `.limit()`, which the MongoDB driver reads as a single batch of the absolute value | `GET /feed?limit=-500` gives limit -500 and skip 0, so one page can hold more than 100 users, up to 500 while they fit in one batch; with `page=2` the skip is -500 and the answer is 500 | a page size between 1 and 100, with a non-positive value falling back to the default 10 | not executed | `Feed.OversizedFeedPage` | `Feed.Limit` |

=== FILE: connection_model.dfy ===
/** The connection-request record: a directed edge between two users with a
    status from a four-value enum, the schema's default, required paths and
    the unique index on the ordered pair. */
module ConnectionModel {
  import opened Json
  import opened UserModel

  datatype Status = Interested | Ignored | Accepted | Rejected

  /** The status as it is written in the enum and in route parameters. */
  function StatusName(s: Status): string {
    match s
    case Interested => "interested"
    case Ignored => "ignored"
    case Accepted => "accepted"
    case Rejected => "rejected"
  }

  /** The enum check: a name is a status exactly when it is one of the four
      names. */
  function ParseStatus(name: string): (r: Option<Status>)
    ensures r.Some? ==> StatusName(r.value) == name
    ensures r.None? <==> forall s: Status :: StatusName(s) != name
  {
    if name == "interested" then Some(Interested)
    else if name == "ignored" then Some(Ignored)
    else if name == "accepted" then Some(Accepted)
    else if name == "rejected" then Some(Rejected)
    else None
  }

  const DefaultStatus: Status := Interested

  /** One edge: fromUserId sent a request to toUserId. */
  datatype Connection = Connection(from: UserId, to: UserId, status: Status)

  datatype SchemaError = MissingFromUser | MissingToUser | NotInStatusEnum(name: string)

  datatype Built = Built(connection: Connection) | BuildFailed(error: SchemaError)

  /** `new Connection({...})` followed by validation: both user ids are
      required, a missing status takes the default, and a given status must
      be in the enum. */
  function Build(from: Option<UserId>, to: Option<UserId>, status: Option<string>): (r: Built)
    ensures r.Built? <==> from.Some? && to.Some? && (status.Some? ==> ParseStatus(status.value).Some?)
    ensures r.Built? ==> r.connection.from == from.value && r.connection.to == to.value
    ensures r.Built? && status.None? ==> r.connection.status == Interested
    ensures r.Built? && status.Some? ==> StatusName(r.connection.status) == status.value
  {
    if from.None? then BuildFailed(MissingFromUser)
    else if to.None? then BuildFailed(MissingToUser)
    else if status.None? then Built(Connection(from.value, to.value, DefaultStatus))
    else match ParseStatus(status.value)
      case None => BuildFailed(NotInStatusEnum(status.value))
      case Some(s) => Built(Connection(from.value, to.value, s))
  }

  /** The unique index `{ fromUserId: 1, toUserId: 1 }`: no two records share
      the same ORDERED pair. */
  predicate OrderedPairsUnique(edges: seq<Connection>) {
    forall i, j :: 0 <= i < j < |edges| ==>
      !(edges[i].from == edges[j].from && edges[i].to == edges[j].to)
  }

  /** The index does not cover the reverse pair: a request each way between
      the same two users satisfies it. */
  lemma IndexAllowsReversePair(a: UserId, b: UserId, s1: Status, s2: Status)
    requires a != b
    ensures OrderedPairsUnique([Connection(a, b, s1), Connection(b, a, s2)])
  {
  }
}

=== FILE: connections.dfy ===
/** The connection-request workflow: sending a request, the recipient's
    review of it, and the three list queries. The edge collection is a store
    object whose Send and Review change it; every handler is one atomic
    step. */
module Connections {
  import opened Json
  import opened Seqs
  import opened UserModel
  import opened ConnectionModel

  // ---------------------------------------------------------------------
  // Edges between two users and the workflow invariant

  /** Edge `c` joins `a` and `b`, pointing either way. */
  predicate Joins(c: Connection, a: UserId, b: UserId) {
    (c.from == a && c.to == b) || (c.from == b && c.to == a)
  }

  /** The `$or` query of Send: some edge joins `a` and `b` in either
      direction. */
  predicate Linked(edges: seq<Connection>, a: UserId, b: UserId) {
    exists i :: 0 <= i < |edges| && Joins(edges[i], a, b)
  }

  /** The invariant the workflow keeps: nobody has an edge to themself, and
      two users share at most one edge, whichever way it points. */
  predicate Exclusive(edges: seq<Connection>) {
    && (forall i :: 0 <= i < |edges| ==> edges[i].from != edges[i].to)
    && (forall i, j :: 0 <= i < j < |edges| ==> !Joins(edges[j], edges[i].from, edges[i].to))
  }

  /** The workflow invariant implies the store's unique (from, to) index, so
      the index never fires on a Send the workflow lets through. */
  lemma ExclusiveSatisfiesIndex(edges: seq<Connection>)
    requires Exclusive(edges)
    ensures OrderedPairsUnique(edges)
  {
  }

  /** Adding an edge between two distinct users who have no edge yet keeps
      the invariant. */
  lemma AppendKeepsExclusive(edges: seq<Connection>, c: Connection)
    requires Exclusive(edges)
    requires c.from != c.to && !Linked(edges, c.from, c.to)
    ensures Exclusive(edges + [c])
  {
    var after := edges + [c];
    forall i, j | 0 <= i < j < |after|
      ensures !Joins(after[j], after[i].from, after[i].to)
    {
      if j == |edges| {
        if Joins(c, edges[i].from, edges[i].to) {
          assert Joins(edges[i], c.from, c.to);
        }
      }
    }
  }

  /** Changing the status of one edge keeps the invariant: it only talks
      about endpoints. */
  lemma StatusChangeKeepsExclusive(edges: seq<Connection>, i: nat, s: Status)
    requires Exclusive(edges) && i < |edges|
    ensures Exclusive(edges[i := edges[i].(status := s)])
  {
    var after := edges[i := edges[i].(status := s)];
    assert forall k :: 0 <= k < |after| ==> after[k].from == edges[k].from && after[k].to == edges[k].to;
  }

  // ---------------------------------------------------------------------
  // The per-edge state machine

  /** The legal moves of one edge's status: `interested` may become
      `accepted` or `rejected`; `ignored`, `accepted` and `rejected` are
      sinks. */
  predicate Transition(before: Status, after: Status) {
    before == after || (before == Interested && (after == Accepted || after == Rejected))
  }

  /** `after` is a legal successor of `before`: existing edges keep their
      endpoints and move only by `Transition`, and new edges, added at the
      end, start as `interested` or `ignored`. */
  predicate Evolves(before: seq<Connection>, after: seq<Connection>) {
    && |before| <= |after|
    && (forall i :: 0 <= i < |before| ==>
          && after[i].from == before[i].from
          && after[i].to == before[i].to
          && Transition(before[i].status, after[i].status))
    && (forall i :: |before| <= i < |after| ==>
          after[i].status == Interested || after[i].status == Ignored)
  }

  // ---------------------------------------------------------------------
  // Send: POST /connection/send/:status/:toUserId

  /** The statuses a sender may choose. */
  function SendStatus(name: string): (r: Option<Status>)
    ensures r.Some? <==> name == "interested" || name == "ignored"
    ensures r.Some? ==> StatusName(r.value) == name
  {
    if name == "interested" then Some(Interested)
    else if name == "ignored" then Some(Ignored)
    else None
  }

  datatype SendResult =
    | Sent(message: string)
    | MissingUserId
    | InvalidSendStatus
    | SelfRequest
    | TargetNotFound
    | AlreadyExists
  {
    /** The HTTP status code of the response. */
    function Code(): int {
      match this
      case Sent(_) => 200
      case TargetNotFound => 404
      case _ => 400
    }

    /** The `message` of the response body. */
    function Text(): string {
      match this
      case Sent(m) => m
      case MissingUserId => "User ID is required"
      case InvalidSendStatus => "Invalid status. Allowed statuses are: interested, ignored"
      case SelfRequest => "You cannot send a connection request to yourself"
      case TargetNotFound => "User not found"
      case AlreadyExists => "Connection request already exists"
    }
  }

  /** The text a template literal gives for an optional string field:
      a missing value prints as "undefined". */
  function Interpolate(s: Option<string>): string {
    match s
    case Some(t) => t
    case None => "undefined"
  }

  /** The confirmation `${firstName} ${lastName} ${status}` of the target. */
  function SentMessage(target: User, statusName: string): string {
    target.firstName + " " + Interpolate(target.lastName) + " " + statusName
  }

  /** What Send answers, check by check in the handler's order. */
  function SendOutcome(edges: seq<Connection>, users: seq<User>, actor: UserId, target: UserId,
                       statusName: string): SendResult
  {
    if actor == "" || target == "" then MissingUserId
    else if SendStatus(statusName).None? then InvalidSendStatus
    else if actor == target then SelfRequest
    else if FindUser(users, target).None? then TargetNotFound
    else if Linked(edges, actor, target) then AlreadyExists
    else Sent(SentMessage(FindUser(users, target).value, statusName))
  }

  /** The edge collection after Send: one new edge on success, no change
      otherwise. */
  function SendEffect(edges: seq<Connection>, users: seq<User>, actor: UserId, target: UserId,
                      statusName: string): seq<Connection>
  {
    if SendOutcome(edges, users, actor, target, statusName).Sent?
    then edges + [Connection(actor, target, SendStatus(statusName).value)]
    else edges
  }

  /** Send succeeds exactly when every check passes, and then it appends
      exactly the edge (actor, target, status) and changes nothing else; on
      any failure the collection is unchanged. */
  lemma SendSpec(edges: seq<Connection>, users: seq<User>, actor: UserId, target: UserId,
                 statusName: string)
    ensures SendOutcome(edges, users, actor, target, statusName).Sent? <==>
      && actor != "" && target != ""
      && (statusName == "interested" || statusName == "ignored")
      && actor != target
      && (exists u :: u in users && u.id == target)
      && !Linked(edges, actor, target)
    ensures var after := SendEffect(edges, users, actor, target, statusName);
      if SendOutcome(edges, users, actor, target, statusName).Sent?
      then |after| == |edges| + 1 && after[..|edges|] == edges &&
           after[|edges|].from == actor && after[|edges|].to == target &&
           StatusName(after[|edges|].status) == statusName
      else after == edges
  {
    var after := SendEffect(edges, users, actor, target, statusName);
    if SendOutcome(edges, users, actor, target, statusName).Sent? {
      assert after[..|edges|] == edges;
    }
  }

  /** The record a successful Send inserts is the one the schema builds
      and validates from the same fields: `new Connection({...})` and its
      `save()` succeed. */
  lemma SendRecordPassesSchema(edges: seq<Connection>, users: seq<User>, actor: UserId, target: UserId,
                               statusName: string)
    requires SendOutcome(edges, users, actor, target, statusName).Sent?
    ensures var after := SendEffect(edges, users, actor, target, statusName);
      |after| == |edges| + 1 && Build(Some(actor), Some(target), Some(statusName)) == Built(after[|edges|])
  {
    var s := SendStatus(statusName).value;
    assert ParseStatus(statusName) == Some(s);
  }

  /** A request to oneself is always refused, whatever the status. */
  lemma SendToSelfRefused(edges: seq<Connection>, users: seq<User>, actor: UserId, statusName: string)
    requires actor != ""
    requires statusName == "interested" || statusName == "ignored"
    ensures SendOutcome(edges, users, actor, actor, statusName) == SelfRequest
    ensures SendEffect(edges, users, actor, actor, statusName) == edges
  {
  }

  /** Once Send between `a` and `b` has succeeded, a second Send between them
      fails in both directions and whatever the status: the edge locks the
      unordered pair. */
  lemma SecondSendRefused(edges: seq<Connection>, users: seq<User>, a: UserId, b: UserId,
                          s1: string, s2: string)
    requires SendOutcome(edges, users, a, b, s1).Sent?
    ensures var after := SendEffect(edges, users, a, b, s1);
      && !SendOutcome(after, users, a, b, s2).Sent?
      && !SendOutcome(after, users, b, a, s2).Sent?
  {
    var after := SendEffect(edges, users, a, b, s1);
    assert Joins(after[|edges|], a, b) && Joins(after[|edges|], b, a);
    assert Linked(after, a, b) && Linked(after, b, a);
  }

  /** Send keeps the workflow invariant and is a legal step of the state
      machine. */
  lemma SendKeepsInvariant(edges: seq<Connection>, users: seq<User>, actor: UserId, target: UserId,
                           statusName: string)
    requires Exclusive(edges)
    ensures Exclusive(SendEffect(edges, users, actor, target, statusName))
    ensures Evolves(edges, SendEffect(edges, users, actor, target, statusName))
  {
    if SendOutcome(edges, users, actor, target, statusName).Sent? {
      AppendKeepsExclusive(edges, Connection(actor, target, SendStatus(statusName).value));
    }
  }

  // ---------------------------------------------------------------------
  // Review: POST /connection/review/:status/:toUserId

  /** The statuses a recipient may resolve a request to. */
  function ReviewStatus(name: string): (r: Option<Status>)
    ensures r.Some? <==> name == "accepted" || name == "rejected"
    ensures r.Some? ==> StatusName(r.value) == name
  {
    if name == "accepted" then Some(Accepted)
    else if name == "rejected" then Some(Rejected)
    else None
  }

  /** The filter of the conditional update: the pending request that
      `requester` sent to `actor`. */
  predicate IsPending(c: Connection, requester: UserId, actor: UserId) {
    c.from == requester && c.to == actor && c.status == Interested
  }

  /** The record `findOneAndUpdate` matches: the first pending request from
      `requester` to `actor`, if any. */
  function FindPending(edges: seq<Connection>, requester: UserId, actor: UserId): (r: Option<nat>)
    ensures r.Some? ==>
      && r.value < |edges|
      && IsPending(edges[r.value], requester, actor)
      && forall j :: 0 <= j < r.value ==> !IsPending(edges[j], requester, actor)
    ensures r.None? <==> forall j :: 0 <= j < |edges| ==> !IsPending(edges[j], requester, actor)
  {
    if edges == [] then None
    else if IsPending(edges[0], requester, actor) then Some(0)
    else match FindPending(edges[1..], requester, actor)
      case None => None
      case Some(k) => Some(k + 1)
  }

  datatype ReviewResult =
    | Reviewed(message: string)
    | NoUserId
    | InvalidReviewStatus
    | RequesterNotFound
    | RequestNotFound
  {
    /** The HTTP status code of the response. */
    function Code(): int {
      match this
      case Reviewed(_) => 200
      case RequesterNotFound => 404
      case RequestNotFound => 404
      case _ => 400
    }

    /** The `message` of the response body. */
    function Text(): string {
      match this
      case Reviewed(m) => m
      case NoUserId => "User ID is required"
      case InvalidReviewStatus => "Invalid status. Allowed statuses are: accepted, rejected"
      case RequesterNotFound => "User not found"
      case RequestNotFound => "Connection request not found or already accepted"
    }
  }

  /** What Review answers, check by check in the handler's order. The
      confirmation names the reviewing user (`fromUserId` in the handler is
      the actor). */
  function ReviewOutcome(edges: seq<Connection>, users: seq<User>, actor: UserId, requester: UserId,
                         statusName: string): ReviewResult
  {
    if actor == "" || requester == "" then NoUserId
    else if ReviewStatus(statusName).None? then InvalidReviewStatus
    else if FindUser(users, requester).None? then RequesterNotFound
    else if FindPending(edges, requester, actor).None? then RequestNotFound
    else Reviewed("Connection request from " + actor + " " + statusName)
  }

  /** The edge collection after Review: on success the matched edge takes the
      new status; otherwise nothing changes. */
  function ReviewEffect(edges: seq<Connection>, users: seq<User>, actor: UserId, requester: UserId,
                        statusName: string): seq<Connection>
  {
    if ReviewOutcome(edges, users, actor, requester, statusName).Reviewed?
    then
      var i := FindPending(edges, requester, actor).value;
      edges[i := edges[i].(status := ReviewStatus(statusName).value)]
    else edges
  }

  /** Review succeeds exactly when a pending request from `requester` to
      `actor` exists (and the earlier checks pass); it changes only such an
      edge, only its status, and only to the reviewed status. On success the
      first such edge takes the reviewed status; on any failure nothing
      changes. Every other edge (the reverse direction, one already resolved
      or ignored) is left as it was. */
  lemma ReviewSpec(edges: seq<Connection>, users: seq<User>, actor: UserId, requester: UserId,
                   statusName: string)
    ensures ReviewOutcome(edges, users, actor, requester, statusName).Reviewed? <==>
      && actor != "" && requester != ""
      && (statusName == "accepted" || statusName == "rejected")
      && (exists u :: u in users && u.id == requester)
      && (exists i :: 0 <= i < |edges| && IsPending(edges[i], requester, actor))
    ensures var after := ReviewEffect(edges, users, actor, requester, statusName);
      && |after| == |edges|
      && forall i :: 0 <= i < |edges| && after[i] != edges[i] ==>
           && IsPending(edges[i], requester, actor)
           && after[i] == Connection(requester, actor, after[i].status)
           && StatusName(after[i].status) == statusName
    ensures var after := ReviewEffect(edges, users, actor, requester, statusName);
      if ReviewOutcome(edges, users, actor, requester, statusName).Reviewed?
      then exists i ::
        && 0 <= i < |edges| && IsPending(edges[i], requester, actor)
        && (forall j :: 0 <= j < i ==> !IsPending(edges[j], requester, actor))
        && after == edges[i := Connection(requester, actor, ReviewStatus(statusName).value)]
      else after == edges
  {
    if ReviewOutcome(edges, users, actor, requester, statusName).Reviewed? {
      var i := FindPending(edges, requester, actor).value;
      assert edges[i].(status := ReviewStatus(statusName).value) ==
        Connection(requester, actor, ReviewStatus(statusName).value);
    }
  }

  /** The sender of a pending request can never resolve it: with the
      invariant in place there is no pending edge the other way. */
  lemma SenderCannotResolve(edges: seq<Connection>, users: seq<User>, sender: UserId, recipient: UserId,
                            k: nat, statusName: string)
    requires Exclusive(edges)
    requires k < |edges| && IsPending(edges[k], sender, recipient)
    ensures !ReviewOutcome(edges, users, sender, recipient, statusName).Reviewed?
    ensures ReviewEffect(edges, users, sender, recipient, statusName) == edges
  {
    if FindPending(edges, recipient, sender).Some? {
      var j := FindPending(edges, recipient, sender).value;
      if j < k {
        assert Joins(edges[k], edges[j].from, edges[j].to);
      } else if k < j {
        assert Joins(edges[j], edges[k].from, edges[k].to);
      }
      assert false;
    }
  }

  /** Review keeps the workflow invariant and is a legal step of the state
      machine: in particular an `ignored`, `accepted` or `rejected` edge never
      changes. */
  lemma ReviewKeepsInvariant(edges: seq<Connection>, users: seq<User>, actor: UserId, requester: UserId,
                             statusName: string)
    requires Exclusive(edges)
    ensures Exclusive(ReviewEffect(edges, users, actor, requester, statusName))
    ensures Evolves(edges, ReviewEffect(edges, users, actor, requester, statusName))
  {
    if ReviewOutcome(edges, users, actor, requester, statusName).Reviewed? {
      var i := FindPending(edges, requester, actor).value;
      StatusChangeKeepsExclusive(edges, i, ReviewStatus(statusName).value);
    }
  }

  // ---------------------------------------------------------------------
  // The store

  /** The connections collection. Send inserts (`save`), Review updates one
      record in place (`findOneAndUpdate`). The users collection is only read
      by these handlers and is passed in. */
  class ConnectionStore {
    var edges: seq<Connection>

    ghost predicate Valid()
      reads this
    {
      Exclusive(edges)
    }

    constructor()
      ensures Valid() && edges == []
    {
      edges := [];
    }

    /** The send handler: `actor` is the authenticated user, `target` and
        `statusName` the route parameters. */
    method Send(actor: UserId, target: UserId, statusName: string, users: seq<User>)
      returns (r: SendResult)
      requires Valid()
      modifies this
      ensures Valid()
      ensures r == SendOutcome(old(edges), users, actor, target, statusName)
      ensures edges == SendEffect(old(edges), users, actor, target, statusName)
      ensures Evolves(old(edges), edges)
    {
      SendKeepsInvariant(edges, users, actor, target, statusName);
      if actor == "" || target == "" {
        return MissingUserId;
      }
      var status := SendStatus(statusName);
      if status.None? {
        return InvalidSendStatus;
      }
      if actor == target {
        return SelfRequest;
      }
      var toUser := FindUser(users, target);
      if toUser.None? {
        return TargetNotFound;
      }
      if Linked(edges, actor, target) {
        return AlreadyExists;
      }
      edges := edges + [Connection(actor, target, status.value)];
      r := Sent(SentMessage(toUser.value, statusName));
    }

    /** The review handler: `actor` is the authenticated user, `requester`
        and `statusName` the route parameters. */
    method Review(actor: UserId, requester: UserId, statusName: string, users: seq<User>)
      returns (r: ReviewResult)
      requires Valid()
      modifies this
      ensures Valid()
      ensures r == ReviewOutcome(old(edges), users, actor, requester, statusName)
      ensures edges == ReviewEffect(old(edges), users, actor, requester, statusName)
      ensures Evolves(old(edges), edges)
    {
      ReviewKeepsInvariant(edges, users, actor, requester, statusName);
      if actor == "" || requester == "" {
        return NoUserId;
      }
      var status := ReviewStatus(statusName);
      if status.None? {
        return InvalidReviewStatus;
      }
      var fromUser := FindUser(users, requester);
      if fromUser.None? {
        return RequesterNotFound;
      }
      var pending := FindPending(edges, requester, actor);
      if pending.None? {
        return RequestNotFound;
      }
      var i := pending.value;
      edges := edges[i := edges[i].(status := status.value)];
      r := Reviewed("Connection request from " + actor + " " + statusName);
    }
  }

  // ---------------------------------------------------------------------
  // The list queries

  /** A list answer: an empty result is the 404 outcome. */
  datatype Listing<T> = Listed(items: seq<T>) | NothingFound

  function ListOf<T>(items: seq<T>): Listing<T> {
    if items == [] then NothingFound else Listed(items)
  }

  /** The filter of GET /connection/requests. */
  function IncomingTest(actor: UserId): Connection -> bool {
    (c: Connection) => c.to == actor && c.status == Interested
  }

  /** The filter of GET /connection/sent. */
  function SentTest(actor: UserId): Connection -> bool {
    (c: Connection) => c.from == actor && c.status == Interested
  }

  /** The filter of GET /connections. */
  function AcceptedTest(actor: UserId): Connection -> bool {
    (c: Connection) => c.status == Accepted && (c.from == actor || c.to == actor)
  }

  /** GET /connection/requests: exactly the pending requests addressed to the
      actor, in store order; none is the not-found outcome. */
  function IncomingRequests(edges: seq<Connection>, actor: UserId): (r: Listing<Connection>)
    ensures r.NothingFound? <==> forall c :: c in edges ==> !(c.to == actor && c.status == Interested)
    ensures r.Listed? ==>
      forall c :: c in r.items <==> c in edges && c.to == actor && c.status == Interested
  {
    ListOf(Filter(edges, IncomingTest(actor)))
  }

  /** GET /connection/sent: exactly the pending requests the actor sent, in
      store order; none is the not-found outcome. */
  function SentRequests(edges: seq<Connection>, actor: UserId): (r: Listing<Connection>)
    ensures r.NothingFound? <==> forall c :: c in edges ==> !(c.from == actor && c.status == Interested)
    ensures r.Listed? ==>
      forall c :: c in r.items <==> c in edges && c.from == actor && c.status == Interested
  {
    ListOf(Filter(edges, SentTest(actor)))
  }

  /** A successful `interested` Send shows up at the end of the target's
      incoming list and of the sender's sent list. */
  lemma SentRequestIsListed(edges: seq<Connection>, users: seq<User>, actor: UserId, target: UserId)
    requires SendOutcome(edges, users, actor, target, "interested").Sent?
    ensures var after := SendEffect(edges, users, actor, target, "interested");
      && Filter(after, IncomingTest(target)) ==
           Filter(edges, IncomingTest(target)) + [Connection(actor, target, Interested)]
      && Filter(after, SentTest(actor)) ==
           Filter(edges, SentTest(actor)) + [Connection(actor, target, Interested)]
  {
    var c := Connection(actor, target, Interested);
    assert SendEffect(edges, users, actor, target, "interested") == edges + [c];
    FilterSingleton(c, IncomingTest(target));
    FilterSingleton(c, SentTest(actor));
    FilterAppend(edges, [c], IncomingTest(target));
    FilterAppend(edges, [c], SentTest(actor));
  }

  /** The other endpoint of an edge, seen from `actor`. */
  function OtherParty(c: Connection, actor: UserId): UserId {
    if c.from == actor then c.to else c.from
  }

  /** One entry of GET /connections: the other user's id and the status
      (the other user's populated profile fields are not modelled). */
  datatype ConnectionView = ConnectionView(id: UserId, status: Status)

  /** GET /connections: every accepted edge touching the actor, normalised to
      the other party whichever way the edge points; none is the not-found
      outcome. */
  function AcceptedConnections(edges: seq<Connection>, actor: UserId): (r: Listing<ConnectionView>)
    ensures r.NothingFound? <==>
      forall c :: c in edges ==> !(c.status == Accepted && (c.from == actor || c.to == actor))
    ensures r.Listed? ==> forall c :: c in edges && c.status == Accepted && (c.from == actor || c.to == actor) ==>
      ConnectionView(OtherParty(c, actor), Accepted) in r.items
    ensures r.Listed? ==> forall v :: v in r.items ==>
      v.status == Accepted && exists c :: c in edges && AcceptedTest(actor)(c) && v.id == OtherParty(c, actor)
  {
    ListOf(Views(Filter(edges, AcceptedTest(actor)), actor))
  }

  /** The `map` over the found edges: one view per edge, in the same order.
      Each edge's view is in the result and each view comes from an edge. */
  function Views(found: seq<Connection>, actor: UserId): (views: seq<ConnectionView>)
    ensures |views| == |found|
    ensures forall i :: 0 <= i < |found| ==> views[i] == ConnectionView(OtherParty(found[i], actor), found[i].status)
    ensures forall c :: c in found ==> ConnectionView(OtherParty(c, actor), c.status) in views
    ensures forall v :: v in views ==> exists c :: c in found && v == ConnectionView(OtherParty(c, actor), c.status)
  {
    var views := seq(|found|, i requires 0 <= i < |found| =>
                       ConnectionView(OtherParty(found[i], actor), found[i].status));
    assert forall c :: c in found ==> ConnectionView(OtherParty(c, actor), c.status) in views by {
      forall c | c in found ensures ConnectionView(OtherParty(c, actor), c.status) in views {
        var i :| 0 <= i < |found| && found[i] == c;
        assert views[i] == ConnectionView(OtherParty(c, actor), c.status);
      }
    }
    assert forall v :: v in views ==> exists c :: c in found && v == ConnectionView(OtherParty(c, actor), c.status) by {
      forall v | v in views ensures exists c :: c in found && v == ConnectionView(OtherParty(c, actor), c.status) {
        var i :| 0 <= i < |views| && views[i] == v;
        assert found[i] in found;
      }
    }
    views
  }

  /** The view does not depend on the edge's direction: an accepted edge
      from A to B and one from B to A both show B to A. */
  lemma AcceptedViewIsDirectionFree(a: UserId, b: UserId)
    requires a != b
    ensures AcceptedConnections([Connection(a, b, Accepted)], a) == Listed([ConnectionView(b, Accepted)])
    ensures AcceptedConnections([Connection(b, a, Accepted)], a) == Listed([ConnectionView(b, Accepted)])
  {
    assert Filter([Connection(a, b, Accepted)], AcceptedTest(a)) == [Connection(a, b, Accepted)];
    assert Filter([Connection(b, a, Accepted)], AcceptedTest(a)) == [Connection(b, a, Accepted)];
  }

  /** Under the invariant the actor never appears among their own accepted
      connections. */
  lemma AcceptedNeverListsSelf(edges: seq<Connection>, actor: UserId)
    requires Exclusive(edges)
    ensures var r := AcceptedConnections(edges, actor);
      r.Listed? ==> forall v :: v in r.items ==> v.id != actor
  {
    var r := AcceptedConnections(edges, actor);
    if r.Listed? {
      forall v | v in r.items ensures v.id != actor {
        var c :| c in edges && AcceptedTest(actor)(c) && v.id == OtherParty(c, actor);
        var i :| 0 <= i < |edges| && edges[i] == c;
        assert edges[i].from != edges[i].to;
      }
    }
  }
}

=== FILE: feed.dfy ===
/** GET /feed: the users the actor has not yet met, a page at a time. The
    query's page and limit go through JavaScript's parseInt and the route's
    defaults, the actor and everyone they share a connection record with are
    excluded, and the page is a skip/limit window over the rest in store
    order. */
module Feed {
  import opened Json
  import opened Seqs
  import opened UserModel
  import opened ConnectionModel

  // ---------------------------------------------------------------------
  // parseInt(value) with no radix argument

  /** The characters JavaScript's TrimStart removes: WhiteSpace (tab,
      vertical tab, form feed, space, no-break space, the byte order mark and
      the other space separators) and LineTerminator. */
  predicate IsSpace(c: char) {
    || c == '\t' || c == '\n' || c == '\U{B}' || c == '\U{C}' || c == '\r' || c == ' '
    || c == '\U{A0}' || c == '\U{1680}' || ('\U{2000}' <= c <= '\U{200A}')
    || c == '\U{2028}' || c == '\U{2029}' || c == '\U{202F}' || c == '\U{205F}'
    || c == '\U{3000}' || c == '\U{FEFF}'
  }

  /** The text with its leading white space removed. */
  function TrimStart(s: string): (r: string)
    ensures |r| <= |s| && r == s[|s| - |r|..]
    ensures forall i :: 0 <= i < |s| - |r| ==> IsSpace(s[i])
    ensures r == [] || !IsSpace(r[0])
  {
    if s != [] && IsSpace(s[0]) then TrimStart(s[1..]) else s
  }

  /** The value of a digit character in base 10 or base 16 (either case),
      or None when the character is not a digit of that base. */
  function Digit(c: char, radix: nat): (r: Option<nat>)
    requires radix == 10 || radix == 16
    ensures r.Some? ==> r.value < radix
  {
    if '0' <= c <= '9' then Some((c - '0') as nat)
    else if radix == 16 && 'a' <= c <= 'f' then Some((c - 'a') as nat + 10)
    else if radix == 16 && 'A' <= c <= 'F' then Some((c - 'A') as nat + 10)
    else None
  }

  predicate AllDigits(s: string, radix: nat)
    requires radix == 10 || radix == 16
  {
    forall i :: 0 <= i < |s| ==> Digit(s[i], radix).Some?
  }

  /** The length of the longest prefix made of digits of the base. */
  function DigitRun(s: string, radix: nat): (k: nat)
    requires radix == 10 || radix == 16
    ensures k <= |s| && AllDigits(s[..k], radix)
    ensures k == |s| || Digit(s[k], radix).None?
  {
    if s == [] || Digit(s[0], radix).None? then 0
    else
      var k := 1 + DigitRun(s[1..], radix);
      assert forall i :: 1 <= i < k ==> s[..k][i] == s[1..][..k - 1][i - 1];
      k
  }

  /** The number a string of digits denotes, most significant digit first. */
  function DigitsValue(ds: string, radix: nat): nat
    requires radix == 10 || radix == 16
    requires AllDigits(ds, radix)
  {
    if ds == [] then 0
    else DigitsValue(ds[..|ds| - 1], radix) * radix + Digit(ds[|ds| - 1], radix).value
  }

  /** The number the longest run of leading digits denotes, or None (NaN)
      when there is no leading digit. */
  function LeadingNumber(s: string, radix: nat): Option<nat>
    requires radix == 10 || radix == 16
  {
    var k := DigitRun(s, radix);
    if k == 0 then None else Some(DigitsValue(s[..k], radix))
  }

  /** Whether the text starts with the `0x` or `0X` prefix. */
  predicate HexPrefix(s: string) {
    |s| >= 2 && s[0] == '0' && (s[1] == 'x' || s[1] == 'X')
  }

  /** The unsigned part: base 16 after a hexadecimal prefix, base 10
      otherwise. */
  function Magnitude(s: string): Option<nat> {
    if HexPrefix(s) then LeadingNumber(s[2..], 16) else LeadingNumber(s, 10)
  }

  /** -1 after a leading minus sign, 1 otherwise. */
  function SignOf(s: string): int {
    if s != [] && s[0] == '-' then -1 else 1
  }

  /** The text after one leading sign, if there is one. */
  function Unsigned(s: string): (r: string)
    ensures r == s || (s != [] && r == s[1..] && (s[0] == '-' || s[0] == '+'))
  {
    if s != [] && (s[0] == '-' || s[0] == '+') then s[1..] else s
  }

  /** parseInt(value) as the route calls it, with None standing for NaN:
      `undefined` gives NaN; otherwise leading white space is skipped, one
      sign is read, a `0x`/`0X` prefix switches to base 16, and the longest
      run of digits is read, NaN when it is empty. */
  function ParseInt(value: Option<string>): Option<int> {
    match value
    case None => None
    case Some(text) =>
      var s := TrimStart(text);
      match Magnitude(Unsigned(s))
      case None => None
      case Some(m) => Some(SignOf(s) * m)
  }

  /** The decimal numeral of a natural number. */
  function Numeral(n: nat): (s: string)
    ensures s != [] && AllDigits(s, 10)
    ensures n != 0 ==> s[0] != '0'
  {
    var last := ['0' + (n % 10) as char];
    if n < 10 then last
    else
      var front := Numeral(n / 10);
      assert (front + last)[0] == front[0];
      front + last
  }

  /** The decimal text of an integer, with a minus sign when negative. */
  function Decimal(n: int): string {
    if n < 0 then "-" + Numeral(-n) else Numeral(n)
  }

  /** Reading back a numeral yields its number. */
  lemma {:induction false} NumeralValue(n: nat)
    ensures DigitsValue(Numeral(n), 10) == n
  {
    var s := Numeral(n);
    if n >= 10 {
      NumeralValue(n / 10);
      assert s[..|s| - 1] == Numeral(n / 10);
    }
  }

  /** A run of digits followed by text that does not start with a digit is
      read up to its end. */
  lemma {:induction false} DigitRunStopsAtEnd(ds: string, rest: string, radix: nat)
    requires radix == 10 || radix == 16
    requires AllDigits(ds, radix)
    requires rest == [] || Digit(rest[0], radix).None?
    ensures DigitRun(ds + rest, radix) == |ds|
  {
    if ds != [] {
      assert (ds + rest)[1..] == ds[1..] + rest;
      DigitRunStopsAtEnd(ds[1..], rest, radix);
    }
  }

  /** The leading number of a numeral followed by a non-digit is the
      numeral's value. */
  lemma MagnitudeOfNumeral(n: nat, rest: string)
    requires rest == [] || Digit(rest[0], 10).None?
    requires n == 0 && rest != [] ==> rest[0] != 'x' && rest[0] != 'X'
    ensures Magnitude(Numeral(n) + rest) == Some(n)
  {
    var ds := Numeral(n);
    NumeralValue(n);
    DigitRunStopsAtEnd(ds, rest, 10);
    assert (ds + rest)[..|ds|] == ds;
    if |ds| >= 2 {
      assert (ds + rest)[1] == ds[1];
    } else if rest != [] {
      assert (ds + rest)[1] == rest[0];
    }
    assert !HexPrefix(ds + rest);
  }

  /** A numeral starts with a digit, whatever follows it. */
  lemma NumeralLeads(n: nat, rest: string)
    ensures Digit((Numeral(n) + rest)[0], 10).Some?
  {
    assert (Numeral(n) + rest)[0] == Numeral(n)[0];
  }

  /** Text that starts with a digit is read with no white space and no
      sign. */
  lemma ParseIntOfUnsigned(text: string, n: nat)
    requires text != [] && Digit(text[0], 10).Some?
    requires Magnitude(text) == Some(n)
    ensures ParseInt(Some(text)) == Some(n)
  {
    assert TrimStart(text) == text;
    assert Unsigned(text) == text;
  }

  /** A minus sign in front of such text negates the number read. */
  lemma ParseIntOfNegated(text: string, n: nat)
    requires text != [] && Digit(text[0], 10).Some?
    requires Magnitude(text) == Some(n)
    ensures ParseInt(Some("-" + text)) == Some(-(n as int))
  {
    var negative := "-" + text;
    assert negative[1..] == text;
    assert TrimStart(negative) == negative;
    assert Unsigned(negative) == text;
  }

  /** parseInt reads back a numeral, with or without a minus sign, whatever
      follows it that is not a further digit (and, after a lone 0, not an
      `x` that would make the text a hexadecimal prefix). */
  lemma ParseIntReadsNumeral(m: nat, rest: string)
    requires rest == [] || Digit(rest[0], 10).None?
    requires m == 0 && rest != [] ==> rest[0] != 'x' && rest[0] != 'X'
    ensures ParseInt(Some(Numeral(m) + rest)) == Some(m)
    ensures ParseInt(Some("-" + (Numeral(m) + rest))) == Some(-(m as int))
  {
    var text := Numeral(m) + rest;
    MagnitudeOfNumeral(m, rest);
    NumeralLeads(m, rest);
    ParseIntOfUnsigned(text, m);
    ParseIntOfNegated(text, m);
  }

  /** parseInt reads back the decimal text of any integer, whatever follows
      it that is not a further digit (nor a hexadecimal `x` after a lone
      0). */
  lemma ParseIntReadsDecimal(n: int, rest: string)
    requires rest == [] || Digit(rest[0], 10).None?
    requires n == 0 && rest != [] ==> rest[0] != 'x' && rest[0] != 'X'
    ensures ParseInt(Some(Decimal(n) + rest)) == Some(n)
  {
    var m: nat := if n < 0 then -n else n;
    if n < 0 {
      assert Decimal(n) + rest == "-" + (Numeral(m) + rest);
    }
    ParseIntReadsNumeral(m, rest);
  }

  /** parseInt reads back the decimal text of any integer. */
  lemma ParseIntReadsDecimalAlone(n: int)
    ensures ParseInt(Some(Decimal(n))) == Some(n)
  {
    ParseIntReadsDecimal(n, "");
    assert Decimal(n) + "" == Decimal(n);
  }

  /** Leading white space does not change what parseInt reads. */
  lemma ParseIntSkipsSpace(c: char, text: string)
    requires IsSpace(c)
    ensures ParseInt(Some([c] + text)) == ParseInt(Some(text))
  {
    assert ([c] + text)[1..] == text;
  }

  /** A value holding no digit at all (no decimal digit, and none of the
      letters a to f) is NaN, and so is `undefined`. */
  lemma ParseIntNaN(value: Option<string>)
    requires value.Some? ==> forall i :: 0 <= i < |value.value| ==> Digit(value.value[i], 16).None?
    ensures ParseInt(value) == None
  {
    if value.Some? {
      var text := value.value;
      var s := TrimStart(text);
      var u := Unsigned(s);
      if u != [] {
        assert u[0] == text[|text| - |u|];
      }
    }
  }

  /** A hexadecimal prefix followed by no hexadecimal digit is NaN. */
  lemma ParseIntEmptyHex(text: string)
    requires HexPrefix(text) && (|text| == 2 || Digit(text[2], 16).None?)
    ensures ParseInt(Some(text)) == None
  {
    assert TrimStart(text) == text;
    assert Unsigned(text) == text;
  }

  // ---------------------------------------------------------------------
  // Page, limit and skip

  /** `parseInt(page) || 1`: NaN and 0 are falsy and give the first page. */
  function Page(query: Option<string>): (page: int)
    ensures page != 0
    ensures ParseInt(query).None? ==> page == 1
    ensures ParseInt(query).Some? && ParseInt(query).value != 0 ==> page == ParseInt(query).value
  {
    var p := ParseInt(query);
    if p.None? || p.value == 0 then 1 else p.value
  }

  /** The limit as the route computes it: `parseInt(limit) || 10`, then
      capped at 100 from above only. */
  function LimitAsWritten(query: Option<string>): (limit: int)
    ensures limit != 0 && limit <= 100
  {
    var p := ParseInt(query);
    var l := if p.None? || p.value == 0 then 10 else p.value;
    if l > 100 then 100 else l
  }

  /** The number of documents the database driver returns at most for a
      cursor limit: a negative limit asks for a single batch of its absolute
      value. The size is 0 only for a limit of 0, which neither
      `LimitAsWritten` nor `Limit` produces; MongoDB would read it as no
      limit, while `Window` reads it as an empty page. */
  function DriverLimit(limit: int): (size: nat)
    ensures size == limit || size == -limit
    ensures size == 0 <==> limit == 0
  {
    if limit < 0 then -limit else limit
  }

  /** A negative limit such as -500 passes the cap unchanged and lets one
      page hold more than 100 users. */
  lemma NegativeLimitPassesCap(n: nat)
    requires n > 100
    ensures LimitAsWritten(Some(Decimal(-(n as int)))) == -(n as int)
    ensures DriverLimit(LimitAsWritten(Some(Decimal(-(n as int))))) == n > 100
  {
    ParseIntReadsDecimalAlone(-(n as int));
  }

  /** The page size the route evidently intends: `parseInt(limit)` when it is
      between 1 and 100, 100 when it is larger, and the default 10 when it is
      NaN, 0 or negative. */
  function Limit(query: Option<string>): (limit: int)
    ensures 1 <= limit <= 100
    ensures ParseInt(query).None? ==> limit == 10
    ensures ParseInt(query).Some? && ParseInt(query).value <= 0 ==> limit == 10
    ensures ParseInt(query).Some? && ParseInt(query).value > 0 ==>
      limit == if ParseInt(query).value > 100 then 100 else ParseInt(query).value
  {
    var p := ParseInt(query);
    if p.None? || p.value <= 0 then 10
    else if p.value > 100 then 100
    else p.value
  }

  /** The corrected limit differs from the route's only where the query
      parses to a negative number. */
  lemma LimitAgreesUnlessNegative(query: Option<string>)
    requires ParseInt(query).None? || ParseInt(query).value >= 0
    ensures Limit(query) == LimitAsWritten(query)
  {
  }

  /** `(page - 1) * limit`. */
  function Skip(page: int, limit: int): int {
    (page - 1) * limit
  }

  /** A page number written as a decimal is that page (0 being the first
      page), and a page size from 1 to 100 written as a decimal is that
      size. */
  lemma QueryOfDecimals(page: int, size: int)
    requires 1 <= size <= 100
    ensures Page(Some(Decimal(page))) == if page == 0 then 1 else page
    ensures Limit(Some(Decimal(size))) == size
  {
    ParseIntReadsDecimalAlone(page);
    ParseIntReadsDecimalAlone(size);
  }

  /** A missing, unparseable or zero page or limit takes its default. */
  lemma QueryDefaults(page: Option<string>, limit: Option<string>)
    requires ParseInt(page).None? || ParseInt(page) == Some(0)
    requires ParseInt(limit).None? || ParseInt(limit) == Some(0)
    ensures Page(page) == 1
    ensures Limit(limit) == 10 && LimitAsWritten(limit) == 10
    ensures Skip(Page(page), Limit(limit)) == 0
  {
  }

  // ---------------------------------------------------------------------
  // The exclusion set

  /** The filter of the connection-request query: records the actor sent or
      received, whatever their status. */
  function TouchesTest(actor: UserId): Connection -> bool {
    (c: Connection) => c.from == actor || c.to == actor
  }

  function Touching(edges: seq<Connection>, actor: UserId): seq<Connection> {
    Filter(edges, TouchesTest(actor))
  }

  /** The request query returns exactly the records touching the actor. */
  lemma TouchingSpec(edges: seq<Connection>, actor: UserId)
    ensures forall c :: c in Touching(edges, actor) <==> c in edges && (c.from == actor || c.to == actor)
  {
  }

  /** Both endpoints of every record in the list. */
  function Endpoints(requests: seq<Connection>): (ids: set<UserId>)
    ensures forall id :: id in ids <==>
      exists c :: c in requests && (id == c.from || id == c.to)
  {
    if requests == [] then {}
    else
      var front := requests[..|requests| - 1];
      var last := requests[|requests| - 1];
      assert forall c :: c in requests <==> c in front || c == last;
      Endpoints(front) + {last.from, last.to}
  }

  /** The users the feed hides from the actor. */
  function Excluded(actor: UserId, edges: seq<Connection>): set<UserId> {
    {actor} + Endpoints(Touching(edges, actor))
  }

  /** A user is hidden exactly when it is the actor or an endpoint of a
      record the actor sent or received, in any status. */
  lemma ExcludedSpec(actor: UserId, edges: seq<Connection>, id: UserId)
    ensures id in Excluded(actor, edges) <==>
      id == actor ||
      exists c :: c in edges && (c.from == actor || c.to == actor) && (id == c.from || id == c.to)
  {
    if id != actor && id in Excluded(actor, edges) {
      var c :| c in Touching(edges, actor) && (id == c.from || id == c.to);
      assert c in edges;
    }
  }

  /** The forEach that fills the set: the actor first, then both ends of
      every request found. */
  method ExclusionSet(actor: UserId, requests: seq<Connection>) returns (blocked: set<UserId>)
    ensures blocked == {actor} + Endpoints(requests)
  {
    blocked := {actor};
    for i := 0 to |requests|
      invariant blocked == {actor} + Endpoints(requests[..i])
    {
      assert requests[..i + 1][..i] == requests[..i];
      blocked := blocked + {requests[i].from, requests[i].to};
    }
    assert requests[..|requests|] == requests;
  }

  // ---------------------------------------------------------------------
  // The page

  /** The users not in the exclusion set, in store order. */
  function Eligible(users: seq<User>, blocked: set<UserId>): (r: seq<User>)
    ensures forall u :: u in r <==> u in users && u.id !in blocked
  {
    Filter(users, (u: User) => u.id !in blocked)
  }

  /** `.skip(skip).limit(limit)` on a result in store order. */
  function Window<T>(s: seq<T>, skip: nat, limit: nat): (r: seq<T>)
    ensures |r| <= limit
    ensures |r| == if skip >= |s| then 0 else if |s| - skip < limit then |s| - skip else limit
    ensures forall i :: 0 <= i < |r| ==> r[i] == s[skip + i]
  {
    if skip >= |s| then []
    else if skip + limit >= |s| then s[skip..]
    else s[skip..skip + limit]
  }

  /** The selected paths of each user found. */
  function Project(us: seq<User>): (ps: seq<PublicProfile>)
    ensures |ps| == |us|
    ensures forall i :: 0 <= i < |us| ==> ps[i] == Public(us[i])
  {
    seq(|us|, i requires 0 <= i < |us| => Public(us[i]))
  }

  datatype FeedResult =
    | Unauthorized
    | FeedPage(entries: seq<PublicProfile>)
    | EmptyFeed
    | FeedError
  {
    function Code(): nat {
      match this
      case Unauthorized => 401
      case FeedPage(_) => 200
      case EmptyFeed => 404
      case FeedError => 500
    }

    function Text(): string {
      match this
      case Unauthorized => "Unauthorized"
      case FeedPage(_) => "Feed fetched successfully"
      case EmptyFeed => "No users found in feed"
      case FeedError => "Internal server error"
    }
  }

  /** The answer of GET /feed as the route computes it: no actor is 401;
      otherwise the skip is `(page - 1) * limit` with the limit as written,
      and the driver returns at most the absolute value of that limit. */
  function FeedOutcome(actor: Option<UserId>, pageQuery: Option<string>, limitQuery: Option<string>,
                       edges: seq<Connection>, users: seq<User>): FeedResult
  {
    if actor.None? then Unauthorized
    else
      var limit := LimitAsWritten(limitQuery);
      Select(actor.value, Skip(Page(pageQuery), limit), DriverLimit(limit), edges, users)
  }

  /** The answer the route evidently intends: the same selection with the
      corrected page size. */
  function IntendedFeedOutcome(actor: Option<UserId>, pageQuery: Option<string>, limitQuery: Option<string>,
                               edges: seq<Connection>, users: seq<User>): FeedResult
  {
    if actor.None? then Unauthorized
    else
      var limit := Limit(limitQuery);
      Select(actor.value, Skip(Page(pageQuery), limit), limit, edges, users)
  }

  /** The selection for one skip and page size: a negative skip is refused
      by the database (500), and an empty page is 404. */
  function Select(actor: UserId, skip: int, size: nat, edges: seq<Connection>, users: seq<User>): FeedResult {
    if skip < 0 then FeedError
    else
      var entries := Project(Window(Eligible(users, Excluded(actor, edges)), skip, size));
      if entries == [] then EmptyFeed else FeedPage(entries)
  }

  /** The route handler: it runs the request query, fills the exclusion set,
      then selects the page. */
  method GetFeed(actor: Option<UserId>, pageQuery: Option<string>, limitQuery: Option<string>,
                 edges: seq<Connection>, users: seq<User>) returns (r: FeedResult)
    ensures r == FeedOutcome(actor, pageQuery, limitQuery, edges, users)
  {
    if actor.None? {
      return Unauthorized;
    }
    var page := Page(pageQuery);
    var limit := LimitAsWritten(limitQuery);
    var skip := (page - 1) * limit;
    var requests := Touching(edges, actor.value);
    var blocked := ExclusionSet(actor.value, requests);
    if skip < 0 {
      return FeedError;
    }
    var found := Project(Window(Eligible(users, blocked), skip, DriverLimit(limit)));
    if found == [] {
      return EmptyFeed;
    }
    r := FeedPage(found);
  }

  // ---------------------------------------------------------------------
  // What the feed promises

  /** Nobody the actor has a connection record with, in either direction and
      any status, is in the feed, and neither is the actor. */
  lemma FeedHidesExcluded(actor: UserId, skip: int, size: nat, edges: seq<Connection>, users: seq<User>)
    ensures var r := Select(actor, skip, size, edges, users);
      r.FeedPage? ==> forall e :: e in r.entries ==>
        && e.id != actor
        && forall c :: c in edges && (c.from == actor || c.to == actor) ==> e.id != c.from && e.id != c.to
  {
    var r := Select(actor, skip, size, edges, users);
    if r.FeedPage? {
      var eligible := Eligible(users, Excluded(actor, edges));
      var window := Window(eligible, skip, size);
      forall e | e in r.entries
        ensures e.id != actor
        ensures forall c :: c in edges && (c.from == actor || c.to == actor) ==> e.id != c.from && e.id != c.to
      {
        var i :| 0 <= i < |r.entries| && r.entries[i] == e;
        assert window[i] in eligible;
        assert e.id == window[i].id;
        ExcludedSpec(actor, edges, e.id);
      }
    }
  }

  /** A page holds at most size entries: the eligible users from position
      skip on, in store order, as many of them as the size allows. A
      negative skip is the 500 answer and an empty window the 404 answer. */
  lemma SelectIsWindowOfEligible(actor: UserId, skip: int, size: nat, edges: seq<Connection>, users: seq<User>)
    ensures var r := Select(actor, skip, size, edges, users);
      var eligible := Eligible(users, Excluded(actor, edges));
      && (r.FeedError? <==> skip < 0)
      && (r.EmptyFeed? <==> 0 <= skip && (|eligible| <= skip || size == 0))
      && (r.FeedPage? ==>
            && |r.entries| == (if |eligible| - skip < size then |eligible| - skip else size)
            && forall i :: 0 <= i < |r.entries| ==> r.entries[i] == Public(eligible[skip + i]))
  {
  }

  /** Without an actor the answer is 401. As written, a page holds at most
      as many entries as the absolute value of the parsed limit; with the
      corrected limit it never holds more than 100. */
  lemma FeedPageBounded(actor: Option<UserId>, pageQuery: Option<string>, limitQuery: Option<string>,
                        edges: seq<Connection>, users: seq<User>)
    ensures var r := FeedOutcome(actor, pageQuery, limitQuery, edges, users);
      && (r.Unauthorized? <==> actor.None?)
      && (r.FeedPage? ==> |r.entries| <= DriverLimit(LimitAsWritten(limitQuery)))
    ensures var r := IntendedFeedOutcome(actor, pageQuery, limitQuery, edges, users);
      && (r.Unauthorized? <==> actor.None?)
      && (r.FeedPage? ==> |r.entries| <= Limit(limitQuery) <= 100)
  {
    if actor.Some? {
      var written := LimitAsWritten(limitQuery);
      SelectIsWindowOfEligible(actor.value, Skip(Page(pageQuery), written), DriverLimit(written), edges, users);
      SelectIsWindowOfEligible(actor.value, Skip(Page(pageQuery), Limit(limitQuery)), Limit(limitQuery), edges, users);
    }
  }

  /** The route and the intended answer agree on every limit query that
      does not parse to a negative number. */
  lemma IntendedAgreesUnlessNegative(actor: Option<UserId>, pageQuery: Option<string>, limitQuery: Option<string>,
                                     edges: seq<Connection>, users: seq<User>)
    requires ParseInt(limitQuery).None? || ParseInt(limitQuery).value >= 0
    ensures FeedOutcome(actor, pageQuery, limitQuery, edges, users) ==
            IntendedFeedOutcome(actor, pageQuery, limitQuery, edges, users)
  {
    LimitAgreesUnlessNegative(limitQuery);
  }

  /** As written, `?limit=-n` on the first page returns n users at once when
      that many are eligible, more than the cap of 100 allows. */
  lemma OversizedFeedPage(actor: UserId, n: nat, edges: seq<Connection>, users: seq<User>)
    requires n > 100
    requires n <= |Eligible(users, Excluded(actor, edges))|
    ensures var r := FeedOutcome(Some(actor), None, Some(Decimal(-(n as int))), edges, users);
      r.FeedPage? && |r.entries| == n
  {
    NegativeLimitPassesCap(n);
    assert Skip(Page(None), -(n as int)) == 0;
    SelectIsWindowOfEligible(actor, 0, n, edges, users);
  }

  /** Position k splits into k / n whole pages of n and an offset k % n. */
  lemma PositionSplits(k: nat, size: nat)
    requires size >= 1
    ensures Skip(k / size + 1, size) + k % size == k
    ensures 0 <= k % size < size && 0 <= Skip(k / size + 1, size)
  {
    assert Skip(k / size + 1, size) == (k / size) * size;
  }

  /** The entry at an offset within a page that starts inside the eligible
      list. */
  lemma EntryAtOffset(actor: UserId, skip: int, size: nat, edges: seq<Connection>, users: seq<User>, offset: nat)
    requires offset < size
    requires 0 <= skip
    requires skip + offset < |Eligible(users, Excluded(actor, edges))|
    ensures var r := Select(actor, skip, size, edges, users);
      && r.FeedPage?
      && offset < |r.entries|
      && r.entries[offset] == Public(Eligible(users, Excluded(actor, edges))[skip + offset])
  {
    SelectIsWindowOfEligible(actor, skip, size, edges, users);
  }

  /** Every user the actor may see is on the page its position names: at
      page size n, the eligible user at position k is entry k % n of page
      k / n + 1. */
  lemma EveryEligibleUserHasAPage(actor: UserId, size: nat, edges: seq<Connection>, users: seq<User>, k: nat)
    requires size >= 1
    requires k < |Eligible(users, Excluded(actor, edges))|
    ensures var r := Select(actor, Skip(k / size + 1, size), size, edges, users);
      && r.FeedPage?
      && k % size < |r.entries|
      && r.entries[k % size] == Public(Eligible(users, Excluded(actor, edges))[k])
  {
    PositionSplits(k, size);
    EntryAtOffset(actor, Skip(k / size + 1, size), size, edges, users, k % size);
  }
}

=== FILE: json.dfy ===
/** JSON values as the route handlers receive them in request bodies, and the
    two pieces of JavaScript semantics the handlers lean on: reading a key of
    an object and deciding whether a value is truthy. */
module Json {

  datatype Option<+T> = None | Some(value: T)

  /** A JSON value. Numbers are exact reals: NaN cannot occur in a parsed
      JSON body, and a huge literal that JavaScript reads as Infinity stays
      finite here. */
  datatype Value =
    | Null
    | Bool(b: bool)
    | Num(n: real)
    | Str(s: string)
    | Arr(items: seq<Value>)
    | Obj(members: seq<Member>)

  /** One member of a JSON object, in the order it was written. */
  datatype Member = Member(key: string, value: Value)

  /** A request body: the members of one JSON object. */
  type Body = seq<Member>

  /** `data.key` on a parsed body: the value of the LAST member with that key
      (JSON.parse keeps the later of two repeated keys), or None for
      `undefined` when no member has it. */
  function Lookup(body: Body, key: string): Option<Value> {
    if body == [] then None
    else if body[|body| - 1].key == key then Some(body[|body| - 1].value)
    else Lookup(body[..|body| - 1], key)
  }

  /** Lookup finds a key exactly when some member has it, and then yields the
      value of the last such member. */
  lemma {:induction false} LookupSpec(body: Body, key: string)
    ensures Lookup(body, key).None? <==> forall i :: 0 <= i < |body| ==> body[i].key != key
    ensures Lookup(body, key).Some? ==>
      exists i :: 0 <= i < |body| && body[i] == Member(key, Lookup(body, key).value) &&
        forall j :: i < j < |body| ==> body[j].key != key
  {
    if body != [] && body[|body| - 1].key != key {
      var front := body[..|body| - 1];
      LookupSpec(front, key);
      assert forall i :: 0 <= i < |front| ==> front[i] == body[i];
    }
  }

  /** Read from the front: a key the rest of the body holds takes the rest's
      value; otherwise the first member decides. */
  lemma {:induction false} LookupFront(body: Body, key: string)
    requires body != []
    ensures Lookup(body, key) ==
      if Lookup(body[1..], key).Some? then Lookup(body[1..], key)
      else if body[0].key == key then Some(body[0].value)
      else None
  {
    if |body| > 1 {
      var front := body[..|body| - 1];
      LookupFront(front, key);
      assert front[1..] == body[1..][..|body[1..]| - 1];
      assert body[1..][|body[1..]| - 1] == body[|body| - 1];
    }
  }

  /** JavaScript truthiness of a value read from a body (None is `undefined`).
      Empty arrays and objects are truthy. */
  predicate Truthy(v: Option<Value>) {
    match v
    case None => false
    case Some(Null) => false
    case Some(Bool(b)) => b
    case Some(Num(n)) => n != 0.0
    case Some(Str(s)) => s != ""
    case Some(Arr(_)) => true
    case Some(Obj(_)) => true
  }
}

=== FILE: profile.dfy ===
/** PATCH /profile/edit: validate the body, copy it onto the loaded user
    document with Object.assign, and save the document. */
module Profile {
  import opened Json
  import opened UserModel
  import opened Validator

  // ---------------------------------------------------------------------
  // The user document's paths as JSON values

  /** The paths of the user schema. */
  const SchemaPaths: seq<string> :=
    ["firstName", "lastName", "email", "password", "age", "gender", "about", "profilePicture", "skills"]

  function OptionalString(s: Option<string>): Value {
    match s
    case None => Null
    case Some(t) => Str(t)
  }

  function OptionalNumber(n: Option<real>): Value {
    match n
    case None => Null
    case Some(x) => Num(x)
  }

  function Strings(ss: seq<string>): (vs: seq<Value>)
    ensures |vs| == |ss| && forall i :: 0 <= i < |ss| ==> vs[i] == Str(ss[i])
  {
    seq(|ss|, i requires 0 <= i < |ss| => Str(ss[i]))
  }

  /** The value a schema path of the record holds, as JSON (an unset
      optional path is null); None for a key that is not a schema path. */
  function PathValue(u: User, key: string): Option<Value> {
    if key == "firstName" then Some(Str(u.firstName))
    else if key == "lastName" then Some(OptionalString(u.lastName))
    else if key == "email" then Some(Str(u.email))
    else if key == "password" then Some(Str(u.password))
    else if key == "age" then Some(OptionalNumber(u.age))
    else if key == "gender" then Some(OptionalString(u.gender))
    else if key == "about" then Some(Str(u.about))
    else if key == "profilePicture" then Some(Str(u.profilePicture))
    else if key == "skills" then Some(Arr(Strings(u.skills)))
    else None
  }

  /** The strings of an array whose items are all strings. */
  function AsStrings(items: seq<Value>): (r: Option<seq<string>>)
    ensures r.Some? ==> Strings(r.value) == items
    ensures r.None? <==> exists i :: 0 <= i < |items| && !items[i].Str?
  {
    if items == [] then Some([])
    else
      var front := items[..|items| - 1];
      var last := items[|items| - 1];
      var rest := AsStrings(front);
      if !last.Str? || rest.None? then
        assert forall i :: 0 <= i < |front| ==> front[i] == items[i];
        None
      else
        assert forall i :: 0 <= i < |front| ==> front[i] == items[i];
        Some(rest.value + [last.s])
  }

  /** One assignment `doc[key] = value` on the document: a string path takes
      a string, an optional path also takes null to unset it, age takes a
      number, skills an array of strings. Any other value cannot be cast and
      is None. A key that is not a schema path is not stored. */
  function SetPath(u: User, key: string, v: Value): Option<User> {
    if key == "firstName" then (if v.Str? then Some(u.(firstName := v.s)) else None)
    else if key == "lastName" then
      (if v.Str? then Some(u.(lastName := Some(v.s))) else if v.Null? then Some(u.(lastName := None)) else None)
    else if key == "email" then (if v.Str? then Some(u.(email := v.s)) else None)
    else if key == "password" then (if v.Str? then Some(u.(password := v.s)) else None)
    else if key == "age" then
      (if v.Num? then Some(u.(age := Some(v.n))) else if v.Null? then Some(u.(age := None)) else None)
    else if key == "gender" then
      (if v.Str? then Some(u.(gender := Some(v.s))) else if v.Null? then Some(u.(gender := None)) else None)
    else if key == "about" then (if v.Str? then Some(u.(about := v.s)) else None)
    else if key == "profilePicture" then (if v.Str? then Some(u.(profilePicture := v.s)) else None)
    else if key == "skills" then
      (if v.Arr? && AsStrings(v.items).Some? then Some(u.(skills := AsStrings(v.items).value)) else None)
    else Some(u)
  }

  /** Assigning a path and reading it back gives the value assigned; no other
      path and not the id changes; and a key that is not a path changes
      nothing. */
  lemma SetPathSpec(u: User, key: string, v: Value)
    ensures PathValue(u, key).Some? <==> key in SchemaPaths
    ensures var r := SetPath(u, key, v);
      && (r.Some? ==> r.value.id == u.id)
      && (r.Some? && key in SchemaPaths ==> PathValue(r.value, key) == Some(v))
      && (r.Some? ==> forall k :: k != key ==> PathValue(r.value, k) == PathValue(u, k))
      && (key !in SchemaPaths ==> r == Some(u))
  {
    if key == "skills" {
      var r := SetPath(u, key, v);
      if r.Some? {
        assert Strings(r.value.skills) == v.items;
      }
    }
  }

  /** Every value a record can hold at a path is accepted there. */
  lemma SetPathAcceptsHeldValues(u: User, key: string, w: User)
    requires key in SchemaPaths
    ensures SetPath(u, key, PathValue(w, key).value).Some?
  {
  }

  /** The document after assigning a body, and whether some value could not
      be cast. */
  datatype Assigned = Assigned(user: User, castFailed: bool)

  /** `Object.assign(doc, JSON.parse(text))`: the parsed object holds each
      key once, with the value of its last occurrence, so a member whose key
      comes again later is dropped and every other member is assigned in
      turn. A value that cannot be cast leaves its path as it was and marks
      the document. Each assignment touches one path only, so the order in
      which distinct keys are assigned does not change the result. */
  function AssignAll(u: User, body: Body): Assigned
    decreases |body|
  {
    if body == [] then Assigned(u, false)
    else
      var m := body[0];
      if Lookup(body[1..], m.key).Some? then AssignAll(u, body[1..])
      else match SetPath(u, m.key, m.value)
        case None => Assigned(AssignAll(u, body[1..]).user, true)
        case Some(v) => AssignAll(v, body[1..])
  }

  /** After assigning a body the id is the same; a path the body does not
      name keeps its value; and, when nothing failed to cast, a path the body
      names holds the body's (last) value for it. */
  lemma {:induction false} AssignSpec(u: User, body: Body, key: string)
    ensures AssignAll(u, body).user.id == u.id
    ensures Lookup(body, key).None? ==> PathValue(AssignAll(u, body).user, key) == PathValue(u, key)
    ensures !AssignAll(u, body).castFailed && key in SchemaPaths && Lookup(body, key).Some? ==>
      PathValue(AssignAll(u, body).user, key) == Lookup(body, key)
    decreases |body|
  {
    if body != [] {
      var m := body[0];
      LookupFront(body, key);
      SetPathSpec(u, m.key, m.value);
      if Lookup(body[1..], m.key).Some? {
        AssignSpec(u, body[1..], key);
      } else if SetPath(u, m.key, m.value).None? {
        AssignSpec(u, body[1..], key);
      } else {
        AssignSpec(SetPath(u, m.key, m.value).value, body[1..], key);
      }
    }
  }

  /** Whether a value can be cast into a path does not depend on the rest of
      the record. */
  lemma CastIgnoresRecord(u: User, w: User, key: string, v: Value)
    ensures SetPath(u, key, v).None? <==> SetPath(w, key, v).None?
  {
  }

  /** Assigning a body marks a cast failure exactly when some key of the
      parsed body holds a (last) value that its path cannot take; values
      overwritten by a later copy of their key are never cast. */
  lemma {:induction false} AssignFailsIff(u: User, body: Body)
    ensures AssignAll(u, body).castFailed <==>
      exists key :: Lookup(body, key).Some? && SetPath(u, key, Lookup(body, key).value).None?
    decreases |body|
  {
    if body == [] {
      assert forall key :: Lookup(body, key).None?;
    } else {
      var m := body[0];
      var rest := body[1..];
      if Lookup(rest, m.key).Some? {
        AssignFailsIff(u, rest);
        forall key
          ensures Lookup(body, key) == Lookup(rest, key)
        {
          LookupFront(body, key);
        }
        assert AssignAll(u, body) == AssignAll(u, rest);
        if AssignAll(u, rest).castFailed {
          var k :| Lookup(rest, k).Some? && SetPath(u, k, Lookup(rest, k).value).None?;
          assert Lookup(body, k).Some? && SetPath(u, k, Lookup(body, k).value).None?;
        } else {
          forall key | Lookup(body, key).Some?
            ensures SetPath(u, key, Lookup(body, key).value).Some?
          {
            assert Lookup(rest, key) == Lookup(body, key);
            assert !(Lookup(rest, key).Some? && SetPath(u, key, Lookup(rest, key).value).None?);
          }
        }
      } else if SetPath(u, m.key, m.value).None? {
        LookupFront(body, m.key);
        assert Lookup(body, m.key) == Some(m.value);
      } else {
        var v := SetPath(u, m.key, m.value).value;
        AssignFailsIff(v, rest);
        forall key
          ensures (Lookup(body, key).Some? && SetPath(u, key, Lookup(body, key).value).None?) <==>
                  (Lookup(rest, key).Some? && SetPath(v, key, Lookup(rest, key).value).None?)
        {
          LookupFront(body, key);
          if Lookup(body, key).Some? {
            CastIgnoresRecord(u, v, key, Lookup(body, key).value);
          }
        }
        assert AssignAll(u, body) == AssignAll(v, rest);
        if AssignAll(v, rest).castFailed {
          var k :| Lookup(rest, k).Some? && SetPath(v, k, Lookup(rest, k).value).None?;
          assert Lookup(body, k).Some? && SetPath(u, k, Lookup(body, k).value).None?;
        } else {
          forall key | Lookup(body, key).Some?
            ensures SetPath(u, key, Lookup(body, key).value).Some?
          {
            assert !(Lookup(rest, key).Some? && SetPath(v, key, Lookup(rest, key).value).None?);
          }
        }
      }
    }
  }

  // ---------------------------------------------------------------------
  // The document

  /** What `save()` checks on a document loaded without its password: the
      profile paths and the email. */
  predicate SaveValid(u: User, isEmail: string -> bool) {
    ProfilePathsValid(u) && EmailValid(u.email, isEmail)
  }

  /** `req.user`: the document loaded for the request (without its
      password), the same record as the database holds it, and whether an
      assignment failed to cast. */
  class UserDocument {
    var record: User
    var castFailed: bool
    var stored: User

    constructor (u: User)
      ensures record == u && stored == u && !castFailed
    {
      record := u;
      stored := u;
      castFailed := false;
    }

    /** `Object.assign(this, body)`, one member at a time, skipping a member
        whose key the parsed object holds with a later value. */
    method Assign(body: Body)
      modifies this
      ensures record == AssignAll(old(record), body).user
      ensures castFailed == (old(castFailed) || AssignAll(old(record), body).castFailed)
      ensures stored == old(stored)
    {
      ghost var start := record;
      ghost var failedBefore := castFailed;
      for i := 0 to |body|
        invariant AssignAll(start, body).user == AssignAll(record, body[i..]).user
        invariant failedBefore || AssignAll(start, body).castFailed <==>
          castFailed || AssignAll(record, body[i..]).castFailed
        invariant stored == old(stored)
      {
        assert body[i..][1..] == body[i + 1..];
        var m := body[i];
        if Lookup(body[i + 1..], m.key).None? {
          var next := SetPath(record, m.key, m.value);
          if next.None? {
            castFailed := true;
          } else {
            record := next.value;
          }
        }
      }
    }

    /** `save()`: it fails when a value could not be cast or a checked path
      breaks the schema, and otherwise writes the record to the database. */
    method Save(isEmail: string -> bool) returns (ok: bool)
      modifies this
      ensures ok <==> !castFailed && SaveValid(record, isEmail)
      ensures stored == if ok then record else old(stored)
      ensures record == old(record) && castFailed == old(castFailed)
    {
      ok := !castFailed && SaveValid(record, isEmail);
      if ok {
        stored := record;
      }
    }
  }

  // ---------------------------------------------------------------------
  // The route

  datatype EditResult =
    | Updated(user: User)
    | ValidationFailed(errors: string)
    | ServerError
  {
    function Code(): nat {
      match this
      case Updated(_) => 200
      case ValidationFailed(_) => 400
      case ServerError => 500
    }

    function Text(): string {
      match this
      case Updated(_) => "Profile updated successfully"
      case ValidationFailed(_) => "Validation failed"
      case ServerError => "Internal server error"
    }
  }

  /** The answer of PATCH /profile/edit for a loaded document: a body the
      validator refuses is 400 with its message; otherwise the body is
      assigned, and the edit is 200 with the new record when the save
      succeeds and 500 when it fails. */
  function EditOutcome(record: User, castFailed: bool, body: Body, isEmail: string -> bool): EditResult {
    match ValidateProfile(body)
    case Invalid(message) => ValidationFailed(message)
    case Valid =>
      var a := AssignAll(record, body);
      if !castFailed && !a.castFailed && SaveValid(a.user, isEmail) then Updated(a.user) else ServerError
  }

  /** The handler. With no document (the user was not found) a valid body
      makes Object.assign throw, which is the 500 answer. */
  method EditProfile(doc: UserDocument?, body: Body, isEmail: string -> bool) returns (r: EditResult)
    modifies doc
    ensures doc == null ==> r == match ValidateProfile(body)
      case Invalid(message) => ValidationFailed(message)
      case Valid => ServerError
    ensures doc != null ==> r == EditOutcome(old(doc.record), old(doc.castFailed), body, isEmail)
    ensures doc != null && r.ValidationFailed? ==>
      doc.record == old(doc.record) && doc.stored == old(doc.stored) && doc.castFailed == old(doc.castFailed)
    ensures doc != null && !r.ValidationFailed? ==> doc.record == AssignAll(old(doc.record), body).user
    ensures doc != null && !r.ValidationFailed? ==>
      doc.castFailed == (old(doc.castFailed) || AssignAll(old(doc.record), body).castFailed)
    ensures doc != null ==> doc.stored == if r.Updated? then r.user else old(doc.stored)
  {
    var verdict := ValidateProfile(body);
    if verdict.Invalid? {
      return ValidationFailed(verdict.message);
    }
    if doc == null {
      return ServerError;
    }
    doc.Assign(body);
    var ok := doc.Save(isEmail);
    if ok {
      r := Updated(doc.record);
    } else {
      r := ServerError;
    }
  }

  // ---------------------------------------------------------------------
  // What an edit promises

  /** An edit never changes the id, the email or the password: the
      whitelist refuses a body that names email or password. */
  lemma EditKeepsCredentials(record: User, castFailed: bool, body: Body, isEmail: string -> bool)
    ensures var r := EditOutcome(record, castFailed, body, isEmail);
      r.Updated? ==> r.user.id == record.id && r.user.email == record.email && r.user.password == record.password
  {
    if ValidateProfile(body).Valid? {
      ProfileValidIff(body);
      LookupSpec(body, "email");
      LookupSpec(body, "password");
      assert "email" !in ProfileFields && "password" !in ProfileFields;
      AssignSpec(record, body, "email");
      AssignSpec(record, body, "password");
    }
  }

  /** A successful edit writes every field the body names, with the body's
      value, and leaves every field it does not name as it was. */
  lemma EditWritesBody(record: User, castFailed: bool, body: Body, isEmail: string -> bool, key: string)
    requires key in SchemaPaths
    ensures var r := EditOutcome(record, castFailed, body, isEmail);
      r.Updated? ==>
        && (Lookup(body, key).Some? ==> PathValue(r.user, key) == Lookup(body, key))
        && (Lookup(body, key).None? ==> PathValue(r.user, key) == PathValue(record, key))
  {
    AssignSpec(record, body, key);
  }

  /** An age the validator lets through (any number from 0 up) but below the
      schema's minimum of 18 makes the save fail: the answer is 500, not
      400. */
  lemma MinorAgeFailsSave(record: User, castFailed: bool, body: Body, isEmail: string -> bool, n: real)
    requires ValidateProfile(body).Valid?
    requires Lookup(body, "age") == Some(Num(n)) && 0.0 <= n < 18.0
    ensures EditOutcome(record, castFailed, body, isEmail) == ServerError
  {
    AssignSpec(record, body, "age");
  }

  /** An edit keeps the unique-email index of the users collection. */
  lemma EditKeepsEmailsUnique(users: seq<User>, i: nat, castFailed: bool, body: Body, isEmail: string -> bool)
    requires EmailsUnique(users) && i < |users|
    ensures var r := EditOutcome(users[i], castFailed, body, isEmail);
      r.Updated? ==> EmailsUnique(users[i := r.user])
  {
    var r := EditOutcome(users[i], castFailed, body, isEmail);
    if r.Updated? {
      EditKeepsCredentials(users[i], castFailed, body, isEmail);
      ReplaceKeepsEmailsUnique(users, i, r.user);
    }
  }
}

=== FILE: seqs.dfy ===
/** Order-preserving selection from a sequence: the shape of every store query
    in the model (`find` with a filter returns matching records in store
    order). */
module Seqs {

  /** The elements of `s` that satisfy `keep`, in their original order and
      with their multiplicities. */
  function Filter<T(==,!new)>(s: seq<T>, keep: T -> bool): (r: seq<T>)
    ensures |r| <= |s|
    ensures forall x :: x in r <==> x in s && keep(x)
    ensures forall x :: multiset(r)[x] == if keep(x) then multiset(s)[x] else 0
  {
    if s == [] then []
    else
      assert s == [s[0]] + s[1..];
      if keep(s[0]) then [s[0]] + Filter(s[1..], keep) else Filter(s[1..], keep)
  }

  /** Filtering distributes over concatenation: selecting from a store that
      grew at its end selects the old records first, then the new ones. */
  lemma {:induction false} FilterAppend<T(!new)>(a: seq<T>, b: seq<T>, keep: T -> bool)
    ensures Filter(a + b, keep) == Filter(a, keep) + Filter(b, keep)
  {
    if a == [] {
      assert a + b == b;
    } else {
      assert (a + b)[0] == a[0];
      assert (a + b)[1..] == a[1..] + b;
      FilterAppend(a[1..], b, keep);
    }
  }

  /** A one-element sequence whose element passes is its own filter. */
  lemma FilterSingleton<T(!new)>(x: T, keep: T -> bool)
    requires keep(x)
    ensures Filter([x], keep) == [x]
  {
    assert [x][1..] == [];
  }
}

=== FILE: user_model.dfy ===
/** The user record of the users collection: its fields, the schema's
    constraints and defaults, and the unique-email index. */
module UserModel {
  import opened Json

  /** A user's `_id`, compared as its hexadecimal text. */
  type UserId = string

  const MinNameLength: nat := 4
  const MaxNameLength: nat := 20
  const MinAge: real := 18.0
  const Genders: seq<string> := ["male", "female", "other"]
  const DefaultAbout: string := "Default about me"
  const DefaultProfilePicture: string :=
    "https://www.mauicardiovascularsymposium.com/wp-content/uploads/2019/08/dummy-profile-pic-300x300.png"

  /** One user document. Optional schema paths that may be unset are
      `Option`s; `about`, `profilePicture` and `skills` always hold a value
      because the schema gives them defaults. `password` holds the stored
      hash. */
  datatype User = User(
    id: UserId,
    firstName: string,
    lastName: Option<string>,
    email: string,
    password: string,
    age: Option<real>,
    gender: Option<string>,
    about: string,
    profilePicture: string,
    skills: seq<string>)

  /** The public projection `select('firstName lastName age gender
      profilePicture')` (plus `_id`, which Mongoose always selects). It has
      no email and no password field. */
  datatype PublicProfile = PublicProfile(
    id: UserId,
    firstName: string,
    lastName: Option<string>,
    age: Option<real>,
    gender: Option<string>,
    profilePicture: string)

  function Public(u: User): PublicProfile {
    PublicProfile(u.id, u.firstName, u.lastName, u.age, u.gender, u.profilePicture)
  }

  /** `minlength: 4, maxlength: 20`. */
  predicate NameLengthOk(s: string) {
    MinNameLength <= |s| <= MaxNameLength
  }

  /** The schema validators of the paths a profile edit can write:
      firstName is required with length 4..20, lastName optional with the
      same bounds, age optional with minimum 18, gender optional from the
      enum. about, profilePicture and skills are typed only. */
  predicate ProfilePathsValid(u: User) {
    && NameLengthOk(u.firstName)
    && (u.lastName.Some? ==> NameLengthOk(u.lastName.value))
    && (u.age.Some? ==> u.age.value >= MinAge)
    && (u.gender.Some? ==> u.gender.value in Genders)
  }

  /** email is required (the empty string fails `required`) and must pass the
      email-format library predicate. */
  predicate EmailValid(email: string, isEmail: string -> bool) {
    email != "" && isEmail(email)
  }

  /** Every schema constraint on one record. The email-format and
      password-strength tests belong to a library and are parameters. */
  predicate SchemaValid(u: User, isEmail: string -> bool, isStrongPassword: string -> bool) {
    && ProfilePathsValid(u)
    && EmailValid(u.email, isEmail)
    && u.password != "" && isStrongPassword(u.password)
  }

  /** The unique index on email. */
  predicate EmailsUnique(users: seq<User>) {
    forall i, j :: 0 <= i < j < |users| ==> users[i].email != users[j].email
  }

  /** A new user document: `about`, `profilePicture` and `skills` take the
      schema defaults when the caller does not supply them. */
  function NewUser(
    id: UserId, firstName: string, lastName: Option<string>, email: string, password: string,
    age: Option<real>, gender: Option<string>,
    about: Option<string>, profilePicture: Option<string>, skills: Option<seq<string>>): User
  {
    User(id, firstName, lastName, email, password, age, gender,
         if about.Some? then about.value else DefaultAbout,
         if profilePicture.Some? then profilePicture.value else DefaultProfilePicture,
         if skills.Some? then skills.value else [])
  }

  /** The defaults never make a record invalid: a new record with the
      defaulted paths left out is valid exactly when the supplied paths are.
      In particular about is 'Default about me', profilePicture the fixed
      placeholder URL and skills empty. */
  lemma DefaultsKeepValidity(
    id: UserId, firstName: string, lastName: Option<string>, email: string, password: string,
    age: Option<real>, gender: Option<string>,
    isEmail: string -> bool, isStrongPassword: string -> bool)
    ensures var u := NewUser(id, firstName, lastName, email, password, age, gender, None, None, None);
      && u.about == DefaultAbout && u.profilePicture == DefaultProfilePicture && u.skills == []
      && (SchemaValid(u, isEmail, isStrongPassword) <==>
            && NameLengthOk(firstName)
            && (lastName.Some? ==> NameLengthOk(lastName.value))
            && (age.Some? ==> age.value >= 18.0)
            && (gender.Some? ==> gender.value in ["male", "female", "other"])
            && email != "" && isEmail(email)
            && password != "" && isStrongPassword(password))
  {
  }

  /** `User.findById`: the record with that id, if the collection holds one. */
  function FindUser(users: seq<User>, id: UserId): (r: Option<User>)
    ensures r.Some? ==> r.value in users && r.value.id == id
    ensures r.None? <==> forall u :: u in users ==> u.id != id
  {
    if users == [] then None
    else if users[0].id == id then Some(users[0])
    else FindUser(users[1..], id)
  }

  /** Writing back one record whose email did not change keeps the email
      index satisfied. */
  lemma {:induction false} ReplaceKeepsEmailsUnique(users: seq<User>, i: nat, u: User)
    requires EmailsUnique(users)
    requires i < |users| && u.email == users[i].email
    ensures EmailsUnique(users[i := u])
  {
    var after := users[i := u];
    forall j, k | 0 <= j < k < |after|
      ensures after[j].email != after[k].email
    {
      assert after[j].email == users[j].email;
      assert after[k].email == users[k].email;
    }
  }
}

=== FILE: validator.dfy ===
/** The request-body validators of signup and profile edit: chains of checks
    that stop at the first failure and report its message. */
module Validator {
  import opened Json
  import opened UserModel

  datatype Verdict = Valid | Invalid(message: string)

  /** The only keys a profile edit may carry. */
  const ProfileFields: seq<string> :=
    ["firstName", "lastName", "age", "gender", "about", "profilePicture", "skills"]

  const FirstNameMessage: string := "First name must be a string between 4 and 20 characters."
  const LastNameMessage: string := "Last name must be a string between 4 and 20 characters."
  const EmailMessage: string := "Invalid email address."
  const PasswordMessage: string :=
    "Password must be at least 8 characters long, contain at least one uppercase letter, one lowercase letter, one number, and one symbol."
  const AgeMessage: string := "Invalid age. Age must be a positive number."
  const GenderMessage: string := "Invalid gender. Gender must be male, female, or other."
  const AboutMessage: string := "About must be a string."
  const PictureMessage: string := "Profile picture must be a string."
  const SkillsMessage: string := "Skills must be an array of strings."

  function FieldMessage(key: string): string {
    "Invalid field: " + key
  }

  /** The email-format and password-strength tests of the validator
      library, whose definitions are not part of this model. */
  datatype Library = Library(isEmail: string -> bool, isStrongPassword: string -> bool)

  // ---------------------------------------------------------------------
  // One check per field

  /** A name passes when it is truthy, a string, and 4 to 20 characters
      long. */
  predicate NameOk(v: Option<Value>) {
    Truthy(v) && v.value.Str? && MinNameLength <= |v.value.s| <= MaxNameLength
  }

  /** An email passes when it is a truthy string the library accepts. */
  predicate EmailOk(v: Option<Value>, lib: Library) {
    Truthy(v) && v.value.Str? && lib.isEmail(v.value.s)
  }

  /** A password passes when it is a truthy string the library calls
      strong. */
  predicate PasswordOk(v: Option<Value>, lib: Library) {
    Truthy(v) && v.value.Str? && lib.isStrongPassword(v.value.s)
  }

  /** A falsy age (absent, null, 0, ...) passes; a truthy one must be a
      number that is not negative. */
  predicate AgeOk(v: Option<Value>) {
    !Truthy(v) || (v.value.Num? && v.value.n >= 0.0)
  }

  /** A falsy gender passes; a truthy one must be one of the three
      strings. */
  predicate GenderOk(v: Option<Value>) {
    !Truthy(v) || (v.value.Str? && v.value.s in Genders)
  }

  /** A falsy value passes; a truthy one must be a string. */
  predicate StringOk(v: Option<Value>) {
    !Truthy(v) || v.value.Str?
  }

  /** A falsy value passes; a truthy one must be an array. */
  predicate ArrayOk(v: Option<Value>) {
    !Truthy(v) || v.value.Arr?
  }

  /** The whitelist loop: the first key, in key order, that is not a profile
      field. */
  function FirstDisallowed(data: Body): Option<string> {
    if data == [] then None
    else if data[0].key !in ProfileFields then Some(data[0].key)
    else FirstDisallowed(data[1..])
  }

  /** The whitelist loop reports the key at the first position whose key is
      outside the whitelist, and reports none exactly when every key is
      allowed. */
  lemma {:induction false} FirstDisallowedSpec(data: Body)
    ensures FirstDisallowed(data).Some? ==>
      exists i :: 0 <= i < |data| && data[i].key == FirstDisallowed(data).value &&
        data[i].key !in ProfileFields &&
        forall j :: 0 <= j < i ==> data[j].key in ProfileFields
    ensures FirstDisallowed(data).None? <==> forall j :: 0 <= j < |data| ==> data[j].key in ProfileFields
  {
    if data != [] && data[0].key in ProfileFields {
      var rest := data[1..];
      FirstDisallowedSpec(rest);
      if FirstDisallowed(rest).Some? {
        var i :| 0 <= i < |rest| && rest[i].key == FirstDisallowed(rest).value &&
          rest[i].key !in ProfileFields && forall j :: 0 <= j < i ==> rest[j].key in ProfileFields;
        assert data[i + 1] == rest[i];
        assert forall j :: 1 <= j <= i ==> data[j] == rest[j - 1];
      }
      assert forall j :: 1 <= j < |data| ==> data[j] == rest[j - 1];
    }
  }

  // ---------------------------------------------------------------------
  // The two validators, as written

  /** validateSignup: firstName, lastName, email, password, in that order. */
  function ValidateSignup(data: Body, lib: Library): Verdict {
    if !NameOk(Lookup(data, "firstName")) then Invalid(FirstNameMessage)
    else if !NameOk(Lookup(data, "lastName")) then Invalid(LastNameMessage)
    else if !EmailOk(Lookup(data, "email"), lib) then Invalid(EmailMessage)
    else if !PasswordOk(Lookup(data, "password"), lib) then Invalid(PasswordMessage)
    else Valid
  }

  /** validateProfile: the whitelist, then the field checks. */
  function ValidateProfile(data: Body): Verdict {
    match FirstDisallowed(data)
    case Some(key) => Invalid(FieldMessage(key))
    case None => ValidateProfileFields(data)
  }

  /** The field checks of validateProfile: firstName and lastName (both
      required, even in a partial edit), then the optional fields. */
  function ValidateProfileFields(data: Body): Verdict {
    if !NameOk(Lookup(data, "firstName")) then Invalid(FirstNameMessage)
    else if !NameOk(Lookup(data, "lastName")) then Invalid(LastNameMessage)
    else if !AgeOk(Lookup(data, "age")) then Invalid(AgeMessage)
    else if !GenderOk(Lookup(data, "gender")) then Invalid(GenderMessage)
    else if !StringOk(Lookup(data, "about")) then Invalid(AboutMessage)
    else if !StringOk(Lookup(data, "profilePicture")) then Invalid(PictureMessage)
    else if !ArrayOk(Lookup(data, "skills")) then Invalid(SkillsMessage)
    else Valid
  }

  // ---------------------------------------------------------------------
  // Reference: an ordered list of rules and the first one broken

  datatype Rule =
    | AllowedKeys | FirstName | LastName | Email | Password
    | Age | Gender | About | ProfilePicture | Skills

  predicate Holds(rule: Rule, data: Body, lib: Library) {
    match rule
    case AllowedKeys => FirstDisallowed(data).None?
    case FirstName => NameOk(Lookup(data, "firstName"))
    case LastName => NameOk(Lookup(data, "lastName"))
    case Email => EmailOk(Lookup(data, "email"), lib)
    case Password => PasswordOk(Lookup(data, "password"), lib)
    case Age => AgeOk(Lookup(data, "age"))
    case Gender => GenderOk(Lookup(data, "gender"))
    case About => StringOk(Lookup(data, "about"))
    case ProfilePicture => StringOk(Lookup(data, "profilePicture"))
    case Skills => ArrayOk(Lookup(data, "skills"))
  }

  /** The message a broken rule reports. */
  function Complaint(rule: Rule, data: Body): string {
    match rule
    case AllowedKeys =>
      (match FirstDisallowed(data) case Some(key) => FieldMessage(key) case None => "")
    case FirstName => FirstNameMessage
    case LastName => LastNameMessage
    case Email => EmailMessage
    case Password => PasswordMessage
    case Age => AgeMessage
    case Gender => GenderMessage
    case About => AboutMessage
    case ProfilePicture => PictureMessage
    case Skills => SkillsMessage
  }

  const SignupRules: seq<Rule> := [FirstName, LastName, Email, Password]
  const FieldRules: seq<Rule> := [FirstName, LastName, Age, Gender, About, ProfilePicture, Skills]
  const ProfileRules: seq<Rule> := [AllowedKeys] + FieldRules

  /** The verdict of running `rules` in order, stopping at the first rule
      that is broken. */
  function FirstBroken(rules: seq<Rule>, data: Body, lib: Library): Verdict {
    if rules == [] then Valid
    else if !Holds(rules[0], data, lib) then Invalid(Complaint(rules[0], data))
    else FirstBroken(rules[1..], data, lib)
  }

  /** Running rules in order is valid exactly when every rule holds, and
      otherwise reports the complaint of the first rule that is broken, every
      earlier one having held. */
  lemma {:induction false} FirstBrokenSpec(rules: seq<Rule>, data: Body, lib: Library)
    ensures FirstBroken(rules, data, lib).Valid? <==>
      forall k :: 0 <= k < |rules| ==> Holds(rules[k], data, lib)
    ensures FirstBroken(rules, data, lib).Invalid? ==>
      exists k :: 0 <= k < |rules| && !Holds(rules[k], data, lib) &&
        (forall j :: 0 <= j < k ==> Holds(rules[j], data, lib)) &&
        FirstBroken(rules, data, lib).message == Complaint(rules[k], data)
  {
    if rules != [] && Holds(rules[0], data, lib) {
      var rest := rules[1..];
      FirstBrokenSpec(rest, data, lib);
      assert forall k :: 1 <= k < |rules| ==> rules[k] == rest[k - 1];
      var r := FirstBroken(rest, data, lib);
      if r.Invalid? {
        var k :| 0 <= k < |rest| && !Holds(rest[k], data, lib) &&
          (forall j :: 0 <= j < k ==> Holds(rest[j], data, lib)) &&
          r.message == Complaint(rest[k], data);
        assert rules[k + 1] == rest[k];
      }
    }
  }

  /** Running a rule list is running its head, then the rest. */
  lemma FirstBrokenCons(rule: Rule, rest: seq<Rule>, data: Body, lib: Library)
    ensures FirstBroken([rule] + rest, data, lib) ==
      if !Holds(rule, data, lib) then Invalid(Complaint(rule, data)) else FirstBroken(rest, data, lib)
  {
    assert ([rule] + rest)[0] == rule;
    assert ([rule] + rest)[1..] == rest;
  }

  /** validateSignup is the first broken rule of firstName, lastName, email,
      password. */
  lemma SignupFollowsRules(data: Body, lib: Library)
    ensures ValidateSignup(data, lib) == FirstBroken(SignupRules, data, lib)
  {
    assert SignupRules == [FirstName] + ([LastName] + ([Email] + ([Password] + [])));
    FirstBrokenCons(Password, [], data, lib);
    FirstBrokenCons(Email, [Password] + [], data, lib);
    FirstBrokenCons(LastName, [Email] + ([Password] + []), data, lib);
    FirstBrokenCons(FirstName, [LastName] + ([Email] + ([Password] + [])), data, lib);
  }

  /** The last three checks of validateProfile are the first broken rule of
      about, profilePicture, skills. */
  lemma TypedFieldsFollowRules(data: Body, lib: Library)
    ensures FirstBroken([About, ProfilePicture, Skills], data, lib) ==
      if !StringOk(Lookup(data, "about")) then Invalid(AboutMessage)
      else if !StringOk(Lookup(data, "profilePicture")) then Invalid(PictureMessage)
      else if !ArrayOk(Lookup(data, "skills")) then Invalid(SkillsMessage)
      else Valid
  {
    assert [About, ProfilePicture, Skills] == [About] + ([ProfilePicture] + ([Skills] + []));
    FirstBrokenCons(Skills, [], data, lib);
    FirstBrokenCons(ProfilePicture, [Skills] + [], data, lib);
    FirstBrokenCons(About, [ProfilePicture] + ([Skills] + []), data, lib);
  }

  /** The optional-field checks of validateProfile are the first broken
      rule of age, gender, about, profilePicture, skills. */
  lemma OptionalFieldsFollowRules(data: Body, lib: Library)
    ensures FirstBroken([Age, Gender, About, ProfilePicture, Skills], data, lib) ==
      if !AgeOk(Lookup(data, "age")) then Invalid(AgeMessage)
      else if !GenderOk(Lookup(data, "gender")) then Invalid(GenderMessage)
      else FirstBroken([About, ProfilePicture, Skills], data, lib)
  {
    var typed := [About, ProfilePicture, Skills];
    assert [Age, Gender, About, ProfilePicture, Skills] == [Age] + ([Gender] + typed);
    FirstBrokenCons(Gender, typed, data, lib);
    FirstBrokenCons(Age, [Gender] + typed, data, lib);
  }

  /** The field checks of validateProfile are the first broken rule of
      firstName, lastName, age, gender, about, profilePicture, skills. */
  lemma ProfileFieldsFollowRules(data: Body, lib: Library)
    ensures ValidateProfileFields(data) == FirstBroken(FieldRules, data, lib)
  {
    var optional := [Age, Gender, About, ProfilePicture, Skills];
    TypedFieldsFollowRules(data, lib);
    OptionalFieldsFollowRules(data, lib);
    assert FieldRules == [FirstName] + ([LastName] + optional);
    FirstBrokenCons(LastName, optional, data, lib);
    FirstBrokenCons(FirstName, [LastName] + optional, data, lib);
  }

  /** validateProfile is the first broken rule of the whitelist followed by
      the field rules. */
  lemma ProfileFollowsRules(data: Body, lib: Library)
    ensures ValidateProfile(data) == FirstBroken(ProfileRules, data, lib)
  {
    ProfileFieldsFollowRules(data, lib);
    FirstBrokenCons(AllowedKeys, FieldRules, data, lib);
  }

  // ---------------------------------------------------------------------
  // What the validators promise

  /** validateSignup accepts a body exactly when every one of its checks
      passes, and otherwise reports the first failing check's message. */
  lemma SignupValidIff(data: Body, lib: Library)
    ensures ValidateSignup(data, lib).Valid? <==>
      && NameOk(Lookup(data, "firstName"))
      && NameOk(Lookup(data, "lastName"))
      && EmailOk(Lookup(data, "email"), lib)
      && PasswordOk(Lookup(data, "password"), lib)
    ensures ValidateSignup(data, lib).Invalid? ==>
      exists k :: 0 <= k < |SignupRules| && !Holds(SignupRules[k], data, lib) &&
        (forall j :: 0 <= j < k ==> Holds(SignupRules[j], data, lib)) &&
        ValidateSignup(data, lib).message == Complaint(SignupRules[k], data)
  {
    SignupFollowsRules(data, lib);
    FirstBrokenSpec(SignupRules, data, lib);
    var rs := SignupRules;
    assert Holds(rs[0], data, lib) <==> NameOk(Lookup(data, "firstName"));
    assert Holds(rs[1], data, lib) <==> NameOk(Lookup(data, "lastName"));
    assert Holds(rs[2], data, lib) <==> EmailOk(Lookup(data, "email"), lib);
    assert Holds(rs[3], data, lib) <==> PasswordOk(Lookup(data, "password"), lib);
  }

  /** validateProfile accepts a body exactly when every key is a profile
      field, firstName and lastName are strings of 4 to 20 characters, and
      each of the optional fields is falsy or of the right kind. */
  lemma ProfileValidIff(data: Body)
    ensures ValidateProfile(data).Valid? <==>
      && (forall j :: 0 <= j < |data| ==> data[j].key in ProfileFields)
      && NameOk(Lookup(data, "firstName"))
      && NameOk(Lookup(data, "lastName"))
      && AgeOk(Lookup(data, "age"))
      && GenderOk(Lookup(data, "gender"))
      && StringOk(Lookup(data, "about"))
      && StringOk(Lookup(data, "profilePicture"))
      && ArrayOk(Lookup(data, "skills"))
  {
    FirstDisallowedSpec(data);
  }

  /** A refused profile edit reports the message of the first rule that is
      broken, every earlier rule having held. */
  lemma ProfileReportsFirstFailure(data: Body, lib: Library)
    ensures ValidateProfile(data).Invalid? ==>
      exists k :: 0 <= k < |ProfileRules| && !Holds(ProfileRules[k], data, lib) &&
        (forall j :: 0 <= j < k ==> Holds(ProfileRules[j], data, lib)) &&
        ValidateProfile(data).message == Complaint(ProfileRules[k], data)
  {
    ProfileFollowsRules(data, lib);
    FirstBrokenSpec(ProfileRules, data, lib);
  }

  /** A key outside the whitelist is reported by name: the first such key in
      key order. */
  lemma ProfileNamesFirstDisallowedKey(data: Body, i: nat)
    requires i < |data| && data[i].key !in ProfileFields
    requires forall j :: 0 <= j < i ==> data[j].key in ProfileFields
    ensures ValidateProfile(data) == Invalid("Invalid field: " + data[i].key)
  {
    FirstDisallowedSpec(data);
    var k :| 0 <= k < |data| && data[k].key == FirstDisallowed(data).value &&
      data[k].key !in ProfileFields && forall j :: 0 <= j < k ==> data[j].key in ProfileFields;
    assert k == i;
  }

  /** A profile edit can never carry email or password: a body holding
      either key is refused by the whitelist. */
  lemma ProfileRefusesCredentials(data: Body, i: nat)
    requires i < |data| && (data[i].key == "email" || data[i].key == "password")
    ensures ValidateProfile(data).Invalid?
    ensures exists j :: 0 <= j <= i && ValidateProfile(data) == Invalid("Invalid field: " + data[j].key)
  {
    assert data[i].key !in ProfileFields;
    FirstDisallowedSpec(data);
    var k :| 0 <= k < |data| && data[k].key == FirstDisallowed(data).value &&
      data[k].key !in ProfileFields && forall j :: 0 <= j < k ==> data[j].key in ProfileFields;
    assert k <= i;
  }

  /** A partial edit that omits firstName or lastName is refused. */
  lemma PartialProfileRefused(data: Body)
    requires Lookup(data, "firstName").None? || Lookup(data, "lastName").None?
    ensures ValidateProfile(data).Invalid?
  {
  }

  /** An age of 0 or no age at all passes the age check, and so does any
      number that is not negative; a negative number fails it. */
  lemma AgeCheckBounds(n: real)
    ensures AgeOk(None) && AgeOk(Some(Num(0.0)))
    ensures AgeOk(Some(Num(n))) <==> n >= 0.0
  {
  }
}
